=== FILE: README.md ===
# Greedy weekly timetable allocator

A Dafny model of the scheduling core of `app.py`, a Streamlit planner for a
health-studies prep school. The core takes settings, rooms, teachers and
curriculum rows. The settings are whether Sunday is taught and the slot
width, 60 or 30 minutes. Each teacher row names the teacher and an
unavailability cell. Each curriculum row gives a class, a subject, a
teacher and weekly hours. The core places 2-hour blocks greedily into a
Monday-to-Friday (plus optional Sunday) week of 09:00–18:00 slots.

The model is built from pure functions over immutable records:

- `Days` holds the day names (`JOURS`, `JOUR_INDEX`, `ALLOWED_DAYS`) and
  `parse_days`. `Text` holds the string operations it uses: Python's
  `strip`, `capitalize`, `replace` and `split`.
- `Slots` holds `build_day_slots` (as a function and as the source's
  `while` loop), `slots_needed` with Python's round-half-to-even, and
  `block2`.
- `Occupancy` holds the boolean slot grids: free windows and marking a
  window busy.
- `StableSort` holds the stable sort the source gets from `sorted(...,
  key=...)`. It is modelled as an insertion sort over positions, ordered by
  (key, original position).
- `Scheduler` holds the `Scheduler` class:
  - `__init__` is split into an immutable `Setup` and a `State`. The
    `State` holds the room, teacher and class grids, the per-class per-day
    minute counters and the assignments.
  - `ensure_prof`, `ensure_class`, `pick_day_for_class`, `find_window`
    and `assign_block`.
  - One placement attempt of the inner loop of `schedule`.
- `Invariant` states what every reachable state satisfies. Every placed
  block is a 2-hour block on an active day the teacher is available,
  inside the grid, in a listed room, for a curriculum row. It is booked in
  its three grids. No two overlapping blocks share a room, class or
  teacher. The counters equal the minutes placed. Every busy grid cell lies
  inside a placed block of that room, class or teacher.
- `Preservation` proves that the initial state satisfies the invariant and
  that each placement attempt keeps it.
- `Exhaustion` shows that a warning means the week is full for that
  block. Grids only fill up during a run, so a block that found no window
  when it was tried finds none when `schedule` returns. That full week can
  be read off the returned assignments: every 2-hour window clashes with
  one of them.
- `BlockCount` counts blocks per (class, subject, teacher) course. It
  proves that sorting the rows does not change the number of blocks asked
  for, per course or in all.
- `Allocation` holds `schedule` itself: the even-hours gate, the
  `ensure_*` loop, the sorted task loop and the block loop. Its contract
  is stated directly in terms of the inputs.

Times are integer minutes from Monday 00:00 of the planned week: day offset
`JOUR_INDEX[day] * 1440` plus the slot's minute of the day. The per-day
hour counter is kept in minutes, so the 3.5 h and 6 h band limits become
210 and 360.

Two points of the code's behaviour are easy to misread:

- The constructor drops rows with `Heures <= 0` (`app.py:181`) before
  `schedule` checks the hours. So only a row with positive odd hours
  aborts the run.
- Days are sorted by `(band, hours)` ascending (`app.py:209-214`). The
  band only grows with the hours, so this orders days by hours alone
  (`Scheduler.DayScoreOrder`). The class's least-loaded day on which the
  teacher is available is tried first. A day gets another block ahead of a
  lighter day only when the lighter day has no window for it.

## Model

| member | source | states |
|---|---|---|
| Days.ParseDays | app.py:76-82 | Every day returned is in `ALLOWED_DAYS`, so never "Samedi". A list keeps exactly its allowed entries. A string keeps exactly the allowed names among its stripped, capitalised comma/semicolon pieces. Any other value gives `[]`. |
| Days.KeepAllowed | app.py:78 | The filtered list is no longer than the input, and a name is in it iff it is in the input and allowed. |
| Days.ParseAllowedList | app.py:77-78 | A list made only of allowed names parses to itself, unchanged and in order. |
| Days.ParseRender | app.py:79-81 | Round trip: writing allowed names as `", ".join(days)` text (for example `"Lundi, Mardi"`) and parsing it gives back the same list in order. |
| Days.CleanPiecesMembers | app.py:80 | A non-empty word survives the piece cleaning iff some piece strips and capitalises to it. |
| Days.IndexAgrees | app.py:10 | Each weekday's name is a key of `JOUR_INDEX`, mapped to its position from Monday = 0 to Sunday = 6. |
| Days.AllowedNames | app.py:74 | A weekday's name is in `ALLOWED_DAYS` iff the day is not Saturday. Only Saturday is named "Samedi" and only Sunday "Dimanche". |
| Text.Strip | app.py:80 | The result is no longer than the input and starts and ends with a non-space character, using Python's whitespace set. |
| Text.StripInfix | app.py:80 | The stripped string is a contiguous piece of the input, and everything cut off on either side is whitespace. |
| Text.StripLeadingSpaces | app.py:80 | Stripping leading whitespace from whitespace followed by a word that starts with a non-space gives the word. |
| Text.StripAfterSpaces | app.py:80 | Stripping leading whitespace off a trimmed word gives the word back. |
| Text.Capitalize | app.py:80 | Same length; the first character is upper-cased and every other character lower-cased. |
| Text.ReplaceChar | app.py:80 | Same length; exactly the characters equal to `from` become `to`. |
| Text.Split | app.py:80 | `split` gives at least one piece, and no piece contains the separator. |
| Text.SplitJoin | app.py:80 | Joining separator-free pieces and splitting again gives the same pieces. |
| Text.JoinSplit | app.py:80 | Splitting a string and joining the pieces gives the same string. |
| Slots.DaySlots | app.py:157-173 | No slot on Saturday, nor on Sunday when it is off. Otherwise there are 9 slots at 60 min and 18 at 30 min. The first is 09:00, consecutive slots are `slot_minutes` apart, and every hour is in 9..17. |
| Slots.BuildDaySlots | app.py:157-173 | The source's `while` loop, which carries the minute into the hour, builds exactly the `DaySlots` list. |
| Slots.DaySlotMinute | app.py:162-172 | Slot `k` starts `9*60 + k*slot_minutes` minutes into the day. |
| Slots.SlotsNeeded | app.py:203-204 | `int(round(minutes/slot))`: within half a slot of the exact quotient, ties go to the even count, and it is exact when the slot divides the duration. |
| Slots.Block2 | app.py:191 | `block2` slots cover exactly 120 minutes at either granularity, and there is at least one. |
| Occupancy.MarkWindow | app.py:230-233 | The marked window's cells are busy; every other cell and the length are unchanged. |
| Occupancy.FreeApart | app.py:220-225 | A window that is free in a grid is disjoint from any stretch that grid has marked busy. |
| StableSort.SortIndices | app.py:214 | The positions are a permutation, ordered by key with ties kept in the original order. |
| StableSort.StableOrderUnique | app.py:250 | Only one permutation is stably ordered, so the model's sort is the one `sorted` returns. |
| Scheduler.ActiveDays | app.py:183 | `self.days` holds exactly the days other than Saturday, with Sunday only when enabled, in weekday order. |
| Scheduler.ActiveDaysNames | app.py:183 | The active days' names are the leading entries of `JOURS`: all six with Sunday, the first five without. |
| Scheduler.SlotCountAgrees | app.py:184 | The grid width of a day equals the length of its `build_day_slots` list. |
| Scheduler.IndispoMap | app.py:182 | Keys are the teachers named; each holds allowed day names only, and the last row of a teacher wins. |
| Scheduler.PositiveRows | app.py:181 | Keeps exactly the curriculum rows with positive hours. |
| Scheduler.PositiveRowsAppend | app.py:181 | The mask keeps order and duplicates: filtering a concatenation gives the filtered parts, concatenated. |
| Scheduler.PositiveRowsOne | app.py:181 | A single row is kept iff its hours are positive. |
| Scheduler.InitialState | app.py:184-190 | The room grids are keyed by exactly the listed rooms, and every listed room has all-free grids on every active day. No teacher, class, counter or assignment exists yet. |
| Scheduler.EnsureProf | app.py:193-195 | A known teacher leaves the state unchanged. A new one gets all-free grids on every active day, and nothing else changes. |
| Scheduler.EnsureClass | app.py:197-201 | A known class's grids and counters are untouched. A new class gets all-free grids and zero counters on every active day. Rooms, teachers and assignments are unchanged. |
| Scheduler.Band | app.py:209-213 | Band 0 iff under 3.5 h, band 2 iff at least 6 h, band 1 otherwise. |
| Scheduler.DayScoreOrder | app.py:209-213 | One day's score is below another's iff its minutes are. Two scores are equal iff the minutes are. The band never reorders days. |
| Scheduler.CandidateDays | app.py:208 | A day is a candidate iff it is among the given days, its name is not excluded, and it has slots. |
| Scheduler.CandidateDaysOrdered | app.py:208 | The candidate days keep the weekday order of `self.days`. |
| Scheduler.PickDays | app.py:206-214 | Returns exactly the active days with slots on which the teacher is available. Each day comes before the next by a strictly smaller (band, hours) score, or an equal score and an earlier weekday. |
| Scheduler.ScanStarts | app.py:219-225 | The first free start in one room from `start` on, or none when no later start fits. |
| Scheduler.ScanRooms | app.py:217-227 | The first fitting (room, start) in room-list order from room `ri` on, or none when none fits. |
| Scheduler.FindWindow | app.py:216-227 | A returned window lies inside the day and is free in the room's, class's and teacher's grids. No earlier (room, start) pair fits. It returns nothing iff no pair fits. |
| Scheduler.MakeAssignment | app.py:234-237 | The record starts at the slot's minute of the day, offset by the day, and lasts `length*slot_minutes` minutes. Day, room, class, subject and teacher are the ones given. |
| Scheduler.Book | app.py:230-233 | Only the keyed grid of that day changes, marked as `MarkWindow` says. |
| Scheduler.AddMinutes | app.py:238 | Only the class's counter for that day changes, by the given minutes. |
| Scheduler.AssignBlock | app.py:229-238 | Keeps the state's shape, keeps every key set, and appends exactly the new record. |
| Scheduler.AssignBlockFrame | app.py:229-238 | The window's cells become busy in exactly the room's, class's and teacher's grid for that day. No other cell changes. Only that class's counter for that day grows, by the block's minutes. |
| Scheduler.FirstPlacement | app.py:255-259 | A found placement is on the first preferred day that has a window, with `find_window`'s window on that day. It finds nothing iff no preferred day has a window. |
| Scheduler.PlaceBlock | app.py:255-261 | One attempt either keeps the earlier assignments and appends one for the task's (class, subject, teacher), or leaves the state unchanged with one warning for that triple. |
| Scheduler.NoPlacementAnywhere | app.py:255-259 | The day loop finds no window iff no active day on which the teacher is available has a fitting (room, start) pair. |
| Scheduler.PlaceBlockWarns | app.py:255-261 | An attempt warns iff no active day on which the teacher is available has a room and start where the 2-hour block fits. |
| Scheduler.PlaceBlockBooks | app.py:255-258 | A successful attempt appends exactly the record `assign_block` makes for the first preferred day with a window, in `find_window`'s room and start on that day. |
| Scheduler.EnsureAll | app.py:244-246 | After the first loop the teachers with grids are exactly the earlier ones plus the rows' teachers. The classes with grids, and those with counters, are exactly the earlier ones plus the rows' classes. Existing entries are untouched and counters stay zero. |
| Scheduler.TaskKeyOrder | app.py:247-249 | One row's weight is below another's iff it asks for more hours, or for as many hours with a teacher who has more unavailable days. |
| Scheduler.Tasks | app.py:247-250 | The tasks are the positive curriculum rows ordered by (-hours, -number of unavailable days). The task at position `p` is the row the stable sort order puts at `p`. |
| Scheduler.TaskOrder | app.py:250 | The task order is a permutation, stably ordered by the weight key. |
| Preservation.OverlapSlots | app.py:234-236 | Two 2-hour blocks on the same day overlap in time iff their slot windows intersect. |
| Preservation.PlacingApart | app.py:216-238 | A block placed in a free window clashes with no earlier block in room, class or teacher. |
| Preservation.PlacingHours | app.py:238 | After a placement each counter still equals the minutes of that class's blocks on that day. |
| Preservation.PlacingSound | app.py:229-238 | Placing a block in a window `find_window` may return keeps the invariant. |
| Preservation.PlaceBlockSound | app.py:254-261 | One block attempt keeps the invariant. |
| Preservation.MadeCovers | app.py:230-237 | Every cell `assign_block` marks lies inside the time span of the record it appends. |
| Preservation.BookExplained | app.py:230-233 | Marking a window busy keeps every busy cell explained when a block of that grid's owner covers the window. |
| Preservation.AssignBlockExplained | app.py:229-238 | After `assign_block`, every busy cell of every grid still lies inside a placed block of that room, class or teacher. |
| Preservation.PlacingExplained | app.py:255-258 | Placing a block in the window `find_window` returns keeps every busy cell explained. |
| Preservation.EnsureAllIdle | app.py:244-246 | The `ensure_*` loop only adds free grids: class and teacher grids that start all free stay all free. |
| Preservation.StartSound | app.py:184-246 | The state after `__init__` and the `ensure_*` loop satisfies the invariant. |
| Exhaustion.CoversSlot | app.py:230-236 | A placed block's time span covers a cell's start time iff the cell is one of the slots it booked. |
| Exhaustion.SoundMarks | app.py:229-238 | In a reachable state every cell a placed block covers is busy in its room's, class's and teacher's grids. |
| Exhaustion.GridKept | app.py:229-238 | A busy cell stays busy for the rest of the run: the block that explains it is kept and keeps it busy. |
| Exhaustion.GridBack | app.py:220-225 | A window free in a later grid of a room, class or teacher was free in the earlier one. |
| Exhaustion.FitsBack | app.py:216-227 | A window that fits later in the run fitted earlier, when each of its three grids only filled up. |
| Exhaustion.NoWindowStays | app.py:251-261 | Once no room has a window for a 2-hour block on any active day the teacher is available, none appears later in the run. |
| Exhaustion.PlaceBlockFull | app.py:255-261 | An attempt that warns leaves no room with a window for the block on any active day the teacher is available. |
| Exhaustion.MissTaken | app.py:216-227 | A window inside the day that does not fit overlaps a placed block of that room, of the class or of the teacher. |
| Exhaustion.TakenMiss | app.py:216-238 | A window that overlaps a placed block of that room, class or teacher does not fit. |
| Exhaustion.UnplaceableFull | app.py:216-261 | In a reachable state the week is full for a block iff every 2-hour window inside the day, in every listed room, overlaps a placed block of that room, class or teacher. |
| BlockCount.BlocksForEvery | app.py:252-253 | Counting the blocks of every course gives the total number of `Heures // 2` blocks. |
| BlockCount.BlocksForPermuted | app.py:250-253 | Any reordering of the rows asks for the same number of `Heures // 2` blocks, per course and in all. |
| BlockCount.TasksBlocks | app.py:250-253 | The sorted task list asks for exactly as many blocks as the curriculum, per course and in all. |
| Allocation.PlaceBlockAdds | app.py:255-261 | One attempt keeps every earlier assignment and adds at most one, and whatever it adds is for the task's course. |
| Allocation.PlaceBlocks | app.py:253-261 | `n_blocks` attempts for one task keep the invariant and every earlier assignment. They append only assignments for the task's course. Each attempt yields one assignment or one warning, and every warning names that task. If any attempt warned, no room has a window for the task's 2-hour block on any active day the teacher is available, when the attempts end. |
| Allocation.PlaceBlocksCount | app.py:253-261 | For any course, the blocks `n_blocks` attempts place plus those they warn about are `n_blocks` for the task's course and 0 for any other. |
| Allocation.PlaceTasks | app.py:251-261 | The task loop keeps the invariant and every earlier assignment. Placed plus warned blocks equal the blocks asked for, and every warning names some task. For every warning, no room has a window for that 2-hour block on any active day its teacher is available, when the loop ends. |
| Allocation.PlaceTasksAdds | app.py:251-261 | The task loop keeps every earlier assignment and appends only assignments for the course of one of the tasks. |
| Allocation.PlaceTasksCount | app.py:251-261 | For every course, the blocks the task loop places plus those it warns about equal the blocks the tasks ask for that course. |
| Allocation.RunCounts | app.py:250-261 | Started with nothing placed, the sorted task loop places or warns about, per course, exactly the blocks the curriculum asks for. |
| Allocation.SoundSafe | app.py:229-238 | Every block of a sound state is safe, as stated next for `Schedule`. |
| Allocation.Schedule | app.py:240-262 | Fails with the source's message iff some positive row has odd hours. Otherwise every block is safe: not Saturday, Sunday only when enabled, not on a day its teacher is unavailable, 2 hours inside 09:00–18:00, in a listed room, for a positive curriculum row. No two overlapping blocks share a room, class or teacher. Placed plus warned blocks equal the total `Heures // 2`, in all and for every (class, subject, teacher) course. So a course with no warning gets exactly its `Heures // 2` blocks. Every warning names a positive row. For every warning, each 2-hour window inside the day, in every listed room, on every active day its teacher is available, overlaps a returned block of that room, of the warning's class or of its teacher. |

## Left out

- The Streamlit sidebar, editors, buttons and messages, and the deployment text. They are user interface only. `include_sunday` and `slot_minutes` become the fields of `Config`.
- The Excel export and download. They are file I/O.
- pandas plumbing: `DataFrame`, `iterrows`, `to_dict` and the cached defaults. Rows are plain sequences of records.
- `build_class_options` and `CLASS_CATALOG`. They only build dropdown labels.
- The `Lieu`/`Salle` columns become a `Room` record. The `Durée (h)` column of an assignment becomes `minutes`.
- `datetime` arithmetic and the chosen Monday's date. Times are minutes from the week's Monday 00:00, so the calendar date itself is not modelled.
- Float hours. Hours are integer minutes, which is exact because every increment is a whole number of slots. Fractional or non-numeric `Heures` cells are not modelled; hours are integers.
- `st.warning`. Warnings are a returned list of (class, subject, teacher) triples in the order they are issued.
- Slot widths other than 60 and 30. The settings offer only these two.
- Slots.SlotsNeeded: only the call `slots_needed(2.0)` occurs in the core, so the model takes whole minutes rather than float hours.
- Text.Capitalize: upper/lower-casing maps only ASCII letters. Python's full Unicode case mapping is not modelled. Every allowed day name is ASCII.
- Scheduler.FindWindow: the `setdefault` calls insert a one-day grid for an unknown class or teacher. The model reads such a grid as free and does not insert it. `schedule` runs the `ensure_*` loop first, so the case does not arise there.
- Allocation.PlaceBlocks and Allocation.PlaceTasks: their requires ask for the invariant. They are only ever entered from the state the `ensure_*` loop leaves, which `Preservation.StartSound` shows satisfies it.
- Allocation.Schedule: blocks are counted per (class, subject, teacher) course, not per curriculum row. Two rows with the same triple give assignments that cannot be told apart, in the source as well.

=== FILE: allocation.dfy ===
/** The block loops and `Scheduler.schedule()`: validation, the first
    loop that gives every teacher and class its grids, and the greedy
    placement of every requested 2-hour block, with what a finished
    timetable guarantees. */
module Allocation {
  import opened Results
  import opened Days
  import opened Slots
  import opened Scheduler
  import opened Invariant
  import opened Preservation
  import opened BlockCount
  import opened Exhaustion

  /** One attempt adds at most one assignment, for the task's course. */
  lemma PlaceBlockAdds(setup: Setup, st: State, task: Requirement)
    requires Ready(setup, st) && task in setup.curriculum
    ensures AddsOnly(st.assignments, PlaceBlock(setup, st, task).state.assignments, RowCourse(task))
    ensures |PlaceBlock(setup, st, task).state.assignments| <= |st.assignments| + 1
  {
    var r := PlaceBlock(setup, st, task);
    if r.warnings == [] {
      AddsOne(st.assignments, r.state.assignments, RowCourse(task));
    }
  }

  /** `n` blocks of `task`, one after the other. */
  function PlaceBlocks(setup: Setup, st: State, task: Requirement, n: nat): (r: Run)
    requires Sound(setup, st) && task in setup.curriculum
    ensures Sound(setup, r.state)
    ensures AddsOnly(st.assignments, r.state.assignments, RowCourse(task))
    ensures |r.state.assignments| + |r.warnings| == |st.assignments| + n
    ensures forall x :: x in r.warnings ==> x == Warning(task.classe, task.matiere, task.prof)
    ensures r.warnings != [] ==> NoWindow(setup, r.state, Warning(task.classe, task.matiere, task.prof))
    decreases n
  {
    if n == 0 then Run(st, [])
    else
      var first := PlaceBlock(setup, st, task);
      PlaceBlockSound(setup, st, task);
      PlaceBlockAdds(setup, st, task);
      PlaceBlockFull(setup, st, task);
      var rest := PlaceBlocks(setup, first.state, task, n - 1);
      BlocksJoin(setup, st, first, rest, task, n);
      Run(rest.state, first.warnings + rest.warnings)
  }

  /** One attempt followed by the remaining `n - 1` keeps what each of
      them promises: an earlier warning still reports a full week once the
      later blocks are placed. */
  lemma BlocksJoin(setup: Setup, st: State, first: Run, rest: Run, task: Requirement, n: nat)
    requires n > 0
    requires Sound(setup, first.state) && Sound(setup, rest.state)
    requires AddsOnly(st.assignments, first.state.assignments, RowCourse(task))
    requires AddsOnly(first.state.assignments, rest.state.assignments, RowCourse(task))
    requires |first.state.assignments| + |first.warnings| == |st.assignments| + 1
    requires |rest.state.assignments| + |rest.warnings| == |first.state.assignments| + n - 1
    requires forall x :: x in first.warnings ==> x == Warning(task.classe, task.matiere, task.prof)
    requires forall x :: x in rest.warnings ==> x == Warning(task.classe, task.matiere, task.prof)
    requires first.warnings != [] ==> NoWindow(setup, first.state, Warning(task.classe, task.matiere, task.prof))
    requires rest.warnings != [] ==> NoWindow(setup, rest.state, Warning(task.classe, task.matiere, task.prof))
    ensures AddsOnly(st.assignments, rest.state.assignments, RowCourse(task))
    ensures |rest.state.assignments| + |first.warnings + rest.warnings| == |st.assignments| + n
    ensures forall x :: x in first.warnings + rest.warnings ==> x == Warning(task.classe, task.matiere, task.prof)
    ensures first.warnings + rest.warnings != [] ==> NoWindow(setup, rest.state, Warning(task.classe, task.matiere, task.prof))
  {
    AddsOnlyTrans(st.assignments, first.state.assignments, rest.state.assignments, RowCourse(task));
    NoWindowStays(setup, first.state, rest.state, Warning(task.classe, task.matiere, task.prof));
  }

  /** Counting what a run for one course adds: a selector sees all of it
      or none of it. */
  lemma RunCount(before: seq<Assignment>, after: seq<Assignment>, ws: seq<Warning>, c: Course, n: nat)
    requires AddsOnly(before, after, c)
    requires forall x :: x in ws ==> WarningCourse(x) == c
    requires |after| + |ws| == |before| + n
    ensures forall sel :: Scheduled(after[|before|..], sel) + Warned(ws, sel) == if Selects(sel, c) then n else 0
  {
    var added := after[|before|..];
    assert forall k :: 0 <= k < |added| ==> added[k] == after[|before| + k];
    assert forall k :: 0 <= k < |ws| ==> ws[k] in ws;
    forall sel ensures Scheduled(added, sel) + Warned(ws, sel) == if Selects(sel, c) then n else 0 {
      ScheduledUniform(added, c, sel);
      WarnedUniform(ws, c, sel);
    }
  }

  /** The blocks `PlaceBlocks` adds or warns about are all for the task's
      course, `n` in all. */
  lemma PlaceBlocksCount(setup: Setup, st: State, task: Requirement, n: nat)
    requires Sound(setup, st) && task in setup.curriculum
    ensures var r := PlaceBlocks(setup, st, task, n);
      forall sel ::
        Scheduled(r.state.assignments[|st.assignments|..], sel) + Warned(r.warnings, sel) == if Selects(sel, RowCourse(task)) then n else 0
  {
    var r := PlaceBlocks(setup, st, task, n);
    RunCount(st.assignments, r.state.assignments, r.warnings, RowCourse(task), n);
  }

  /** Warnings for the first task followed by warnings for later ones
      each name one of the tasks. */
  lemma WarningsFrom(tasks: seq<Requirement>, first: seq<Warning>, rest: seq<Warning>)
    requires tasks != []
    requires forall x :: x in first ==> x == Warning(tasks[0].classe, tasks[0].matiere, tasks[0].prof)
    requires forall x :: x in rest ==> exists t :: t in tasks[1..] && x == Warning(t.classe, t.matiere, t.prof)
    ensures forall x :: x in first + rest ==> exists t :: t in tasks && x == Warning(t.classe, t.matiere, t.prof)
  {
    forall x | x in first + rest ensures exists t :: t in tasks && x == Warning(t.classe, t.matiere, t.prof) {
      if x in first {
        assert tasks[0] in tasks;
      } else {
        var t :| t in tasks[1..] && x == Warning(t.classe, t.matiere, t.prof);
        assert t in tasks;
      }
    }
  }

  /** The `for task in tasks` loop: every task asks for `Heures // 2`
      blocks, and each is either placed or warned about. */
  function PlaceTasks(setup: Setup, st: State, tasks: seq<Requirement>): (r: Run)
    requires Sound(setup, st) && forall t :: t in tasks ==> t in setup.curriculum && t.hours > 0
    ensures Sound(setup, r.state)
    ensures |r.state.assignments| + |r.warnings| == |st.assignments| + TotalBlocks(tasks)
    ensures forall x :: x in r.warnings ==> exists t :: t in tasks && x == Warning(t.classe, t.matiere, t.prof)
    ensures st.assignments <= r.state.assignments
    ensures forall x :: x in r.warnings ==> NoWindow(setup, r.state, x)
    decreases |tasks|
  {
    if tasks == [] then Run(st, [])
    else
      var first := PlaceBlocks(setup, st, tasks[0], Blocks(tasks[0]));
      var rest := PlaceTasks(setup, first.state, tasks[1..]);
      WarningsFrom(tasks, first.warnings, rest.warnings);
      WarningsStay(setup, first.state, rest.state, first.warnings);
      Run(rest.state, first.warnings + rest.warnings)
  }

  /** The task loop only appends, and every assignment it appends is for
      the course of one of the tasks. */
  lemma {:induction false} PlaceTasksAdds(setup: Setup, st: State, tasks: seq<Requirement>)
    requires Sound(setup, st) && forall t :: t in tasks ==> t in setup.curriculum && t.hours > 0
    ensures AddsFrom(st.assignments, PlaceTasks(setup, st, tasks).state.assignments, tasks)
    decreases |tasks|
  {
    if tasks != [] {
      var first := PlaceBlocks(setup, st, tasks[0], Blocks(tasks[0]));
      PlaceTasksAdds(setup, first.state, tasks[1..]);
      AddsFromStep(st.assignments, first.state.assignments, PlaceTasks(setup, first.state, tasks[1..]).state.assignments, tasks);
    }
  }

  /** Per course, the blocks the task loop places plus those it warns
      about are the blocks the tasks ask for. */
  lemma {:induction false} PlaceTasksCount(setup: Setup, st: State, tasks: seq<Requirement>)
    requires Sound(setup, st) && forall t :: t in tasks ==> t in setup.curriculum && t.hours > 0
    ensures var r := PlaceTasks(setup, st, tasks);
      && st.assignments <= r.state.assignments
      && forall sel :: Scheduled(r.state.assignments[|st.assignments|..], sel) + Warned(r.warnings, sel) == BlocksFor(tasks, sel)
    decreases |tasks|
  {
    if tasks != [] {
      var first := PlaceBlocks(setup, st, tasks[0], Blocks(tasks[0]));
      var rest := PlaceTasks(setup, first.state, tasks[1..]);
      PlaceTasksCount(setup, first.state, tasks[1..]);
      PlaceBlocksCount(setup, st, tasks[0], Blocks(tasks[0]));
      CountStep(st.assignments, first.state.assignments, rest.state.assignments, first.warnings, rest.warnings, tasks);
    }
  }

  /** From a sound state with nothing placed yet, the task loop places or
      warns about, per course, exactly the blocks the curriculum asks for. */
  lemma RunCounts(setup: Setup, st: State)
    requires Sound(setup, st) && st.assignments == []
    requires forall k :: 0 <= k < |setup.curriculum| ==> setup.curriculum[k].hours > 0
    ensures var run := PlaceTasks(setup, st, Tasks(setup));
      forall sel :: Scheduled(run.state.assignments, sel) + Warned(run.warnings, sel) == BlocksFor(setup.curriculum, sel)
  {
    TasksBlocks(setup);
    var tasks := Tasks(setup);
    assert forall t :: t in tasks ==> t in setup.curriculum && t.hours > 0;
    PlaceTasksCount(setup, st, tasks);
    var run := PlaceTasks(setup, st, tasks);
    assert run.state.assignments[|st.assignments|..] == run.state.assignments;
  }

  /** Some row with positive hours asks for an odd number of hours. */
  predicate HasOddHours(rows: seq<Requirement>) {
    exists t :: t in rows && t.hours > 0 && t.hours % 2 != 0
  }

  /** What every block of a finished timetable satisfies, stated in terms
      of the inputs: a weekday of the planned week (Saturday never, Sunday
      only when enabled) on which the teacher is not declared unavailable,
      two hours inside 09:00–18:00, in a listed room, for a curriculum row
      with positive hours. */
  ghost predicate Safe(cfg: Config, rooms: seq<Room>, profs: seq<ProfRow>, curriculum: seq<Requirement>, a: Assignment) {
    && a.day != Samedi && (a.day == Dimanche ==> cfg.includeSunday)
    && (a.prof in IndispoMap(profs) ==> Name(a.day) !in IndispoMap(profs)[a.prof])
    && DayBase(a.day) + START_HOUR * 60 <= a.start
    && a.end <= DayBase(a.day) + END_HOUR * 60
    && a.minutes == 120 && a.end == a.start + 120
    && a.room in rooms
    && exists t :: t in curriculum && t.hours > 0 && t.classe == a.classe && t.matiere == a.matiere && t.prof == a.prof
  }

  lemma PlacedSafe(cfg: Config, rooms: seq<Room>, profs: seq<ProfRow>, curriculum: seq<Requirement>, a: Assignment)
    requires Placed(MakeSetup(cfg, rooms, profs, curriculum), a)
    ensures Safe(cfg, rooms, profs, curriculum, a)
  {
    var setup := MakeSetup(cfg, rooms, profs, curriculum);
    var k := SlotOf(cfg, a);
    BlockEnds(cfg, a.day, k);
  }

  lemma SoundSafe(cfg: Config, rooms: seq<Room>, profs: seq<ProfRow>, curriculum: seq<Requirement>, st: State)
    requires Sound(MakeSetup(cfg, rooms, profs, curriculum), st)
    ensures forall a :: a in st.assignments ==> Safe(cfg, rooms, profs, curriculum, a)
  {
    forall a | a in st.assignments ensures Safe(cfg, rooms, profs, curriculum, a) {
      PlacedSafe(cfg, rooms, profs, curriculum, a);
    }
  }

  /** `Scheduler(...).schedule()`: rejects a curriculum with an odd number
      of hours in a row with `HOURS_ERROR`; otherwise places blocks that
      are safe and pairwise clash-free, and accounts for every block the
      curriculum asks for as either placed or warned about. */
  function Schedule(cfg: Config, rooms: seq<Room>, profs: seq<ProfRow>, curriculum: seq<Requirement>)
    : (r: Result<Timetable, string>)
    ensures r.Err? <==> HasOddHours(curriculum)
    ensures r.Err? ==> r.error == HOURS_ERROR
    ensures r.Ok? ==> forall a :: a in r.value.assignments ==> Safe(cfg, rooms, profs, curriculum, a)
    ensures r.Ok? ==> NoClash(r.value.assignments)
    ensures r.Ok? ==> |r.value.assignments| + |r.value.warnings| == TotalBlocks(PositiveRows(curriculum))
    ensures r.Ok? ==> forall x :: x in r.value.warnings ==>
      exists t :: t in curriculum && t.hours > 0 && x == Warning(t.classe, t.matiere, t.prof)
    ensures r.Ok? ==> forall sel ::
      Scheduled(r.value.assignments, sel) + Warned(r.value.warnings, sel) == BlocksFor(PositiveRows(curriculum), sel)
    ensures r.Ok? ==> forall x :: x in r.value.warnings ==>
      Unplaceable(MakeSetup(cfg, rooms, profs, curriculum), r.value.assignments, x)
  {
    var setup := MakeSetup(cfg, rooms, profs, curriculum);
    if exists t :: t in setup.curriculum && t.hours % 2 != 0 then Err(HOURS_ERROR)
    else
      var st := EnsureAll(setup, InitialState(setup), setup.curriculum);
      StartSound(setup);
      TasksBlocks(setup);
      var run := PlaceTasks(setup, st, Tasks(setup));
      RunCounts(setup, st);
      SoundSafe(cfg, rooms, profs, curriculum, run.state);
      WarningsUnplaceable(setup, run.state, run.warnings);
      Ok(Timetable(run.state.assignments, run.warnings))
  }
}

=== FILE: block_count.dfy ===
/** Counting the 2-hour blocks a curriculum asks for, and why sorting the
    rows by weight does not change that count. */
module BlockCount {
  import opened StableSort
  import opened Scheduler

  /** A (class, subject, teacher) triple: what an assignment is for and
      what a warning names. */
  datatype Course = Course(classe: string, matiere: string, prof: string)

  /** Which blocks to count: all of them, or those of one course. */
  datatype Selector = Every | Only(course: Course)

  predicate Selects(sel: Selector, c: Course) {
    sel.Every? || sel.course == c
  }

  function RowCourse(t: Requirement): Course {
    Course(t.classe, t.matiere, t.prof)
  }

  function AssignmentCourse(a: Assignment): Course {
    Course(a.classe, a.matiere, a.prof)
  }

  function WarningCourse(w: Warning): Course {
    Course(w.classe, w.matiere, w.prof)
  }

  /** `after` extends `before` with assignments for course `c` only. */
  ghost predicate AddsOnly(before: seq<Assignment>, after: seq<Assignment>, c: Course) {
    && before <= after
    && forall k :: |before| <= k < |after| ==> AssignmentCourse(after[k]) == c
  }

  lemma AddsOne(before: seq<Assignment>, after: seq<Assignment>, c: Course)
    requires |after| == |before| + 1 && after[..|before|] == before
    requires AssignmentCourse(after[|before|]) == c
    ensures AddsOnly(before, after, c)
  {
  }

  lemma AddsOnlyTrans(a: seq<Assignment>, b: seq<Assignment>, c: seq<Assignment>, course: Course)
    requires AddsOnly(a, b, course) && AddsOnly(b, c, course)
    ensures AddsOnly(a, c, course)
  {
    forall k | |a| <= k < |c| ensures AssignmentCourse(c[k]) == course {
      if k < |b| {
        assert c[k] == b[k];
      }
    }
  }

  /** `after` extends `before` with assignments for the courses of
      `tasks` only. */
  ghost predicate AddsFrom(before: seq<Assignment>, after: seq<Assignment>, tasks: seq<Requirement>) {
    && before <= after
    && forall k :: |before| <= k < |after| ==> exists t :: t in tasks && AssignmentCourse(after[k]) == RowCourse(t)
  }

  lemma AddsFromStep(before: seq<Assignment>, mid: seq<Assignment>, after: seq<Assignment>, tasks: seq<Requirement>)
    requires tasks != []
    requires AddsOnly(before, mid, RowCourse(tasks[0])) && AddsFrom(mid, after, tasks[1..])
    ensures AddsFrom(before, after, tasks)
  {
    forall k | |before| <= k < |after|
      ensures exists t :: t in tasks && AssignmentCourse(after[k]) == RowCourse(t)
    {
      if k < |mid| {
        assert after[k] == mid[k];
        assert tasks[0] in tasks;
      } else {
        var t :| t in tasks[1..] && AssignmentCourse(after[k]) == RowCourse(t);
        assert t in tasks;
      }
    }
  }

  /** Blocks the selected rows ask for. */
  function BlocksFor(rows: seq<Requirement>, sel: Selector): nat
    requires forall k :: 0 <= k < |rows| ==> rows[k].hours > 0
  {
    if rows == [] then 0
    else (if Selects(sel, RowCourse(rows[0])) then Blocks(rows[0]) else 0) + BlocksFor(rows[1..], sel)
  }

  /** Selected assignments. */
  function Scheduled(xs: seq<Assignment>, sel: Selector): nat {
    if xs == [] then 0
    else (if Selects(sel, AssignmentCourse(xs[0])) then 1 else 0) + Scheduled(xs[1..], sel)
  }

  /** Selected warnings. */
  function Warned(ws: seq<Warning>, sel: Selector): nat {
    if ws == [] then 0
    else (if Selects(sel, WarningCourse(ws[0])) then 1 else 0) + Warned(ws[1..], sel)
  }

  /** Selecting every row counts every block. */
  lemma {:induction false} BlocksForEvery(rows: seq<Requirement>)
    requires forall k :: 0 <= k < |rows| ==> rows[k].hours > 0
    ensures BlocksFor(rows, Every) == TotalBlocks(rows)
    decreases |rows|
  {
    if rows != [] {
      BlocksForEvery(rows[1..]);
    }
  }

  lemma {:induction false} ScheduledAppend(a: seq<Assignment>, b: seq<Assignment>, sel: Selector)
    ensures Scheduled(a + b, sel) == Scheduled(a, sel) + Scheduled(b, sel)
    decreases |a|
  {
    if a == [] {
      assert a + b == b;
    } else {
      assert (a + b)[0] == a[0];
      assert (a + b)[1..] == a[1..] + b;
      ScheduledAppend(a[1..], b, sel);
    }
  }

  lemma {:induction false} WarnedAppend(a: seq<Warning>, b: seq<Warning>, sel: Selector)
    ensures Warned(a + b, sel) == Warned(a, sel) + Warned(b, sel)
    decreases |a|
  {
    if a == [] {
      assert a + b == b;
    } else {
      assert (a + b)[0] == a[0];
      assert (a + b)[1..] == a[1..] + b;
      WarnedAppend(a[1..], b, sel);
    }
  }

  /** When every assignment is for course `c`, a selector counts all of
      them or none. */
  lemma {:induction false} ScheduledUniform(xs: seq<Assignment>, c: Course, sel: Selector)
    requires forall k :: 0 <= k < |xs| ==> AssignmentCourse(xs[k]) == c
    ensures Scheduled(xs, sel) == if Selects(sel, c) then |xs| else 0
    decreases |xs|
  {
    if xs != [] {
      ScheduledUniform(xs[1..], c, sel);
    }
  }

  lemma {:induction false} WarnedUniform(ws: seq<Warning>, c: Course, sel: Selector)
    requires forall k :: 0 <= k < |ws| ==> WarningCourse(ws[k]) == c
    ensures Warned(ws, sel) == if Selects(sel, c) then |ws| else 0
    decreases |ws|
  {
    if ws != [] {
      WarnedUniform(ws[1..], c, sel);
    }
  }

  /** The count for a run split at an intermediate state: the first
      task's share, then the rest's. */
  lemma CountStep(before: seq<Assignment>, mid: seq<Assignment>, after: seq<Assignment>,
                  w1: seq<Warning>, w2: seq<Warning>, tasks: seq<Requirement>)
    requires before <= mid <= after
    requires tasks != [] && forall k :: 0 <= k < |tasks| ==> tasks[k].hours > 0
    requires forall sel ::
      Scheduled(mid[|before|..], sel) + Warned(w1, sel) == if Selects(sel, RowCourse(tasks[0])) then Blocks(tasks[0]) else 0
    requires forall sel :: Scheduled(after[|mid|..], sel) + Warned(w2, sel) == BlocksFor(tasks[1..], sel)
    ensures before <= after
    ensures forall sel :: Scheduled(after[|before|..], sel) + Warned(w1 + w2, sel) == BlocksFor(tasks, sel)
  {
    assert after[|before|..] == mid[|before|..] + after[|mid|..];
    forall sel ensures Scheduled(after[|before|..], sel) + Warned(w1 + w2, sel) == BlocksFor(tasks, sel) {
      ScheduledAppend(mid[|before|..], after[|mid|..], sel);
      WarnedAppend(w1, w2, sel);
    }
  }

  lemma {:induction false} BlocksForAppend(a: seq<Requirement>, b: seq<Requirement>, sel: Selector)
    requires forall k :: 0 <= k < |a| ==> a[k].hours > 0
    requires forall k :: 0 <= k < |b| ==> b[k].hours > 0
    ensures forall k :: 0 <= k < |a + b| ==> (a + b)[k].hours > 0
    ensures BlocksFor(a + b, sel) == BlocksFor(a, sel) + BlocksFor(b, sel)
    decreases |a|
  {
    if a == [] {
      assert a + b == b;
    } else {
      assert (a + b)[0] == a[0];
      assert (a + b)[1..] == a[1..] + b;
      BlocksForAppend(a[1..], b, sel);
    }
  }

  /** The rows of `rows` in the order `order` lists their positions. */
  function Permuted(rows: seq<Requirement>, order: seq<nat>): (r: seq<Requirement>)
    requires forall p :: 0 <= p < |order| ==> order[p] < |rows|
    ensures |r| == |order| && forall p :: 0 <= p < |order| ==> r[p] == rows[order[p]]
  {
    seq(|order|, p requires 0 <= p < |order| => rows[order[p]])
  }

  lemma PermutedConcat(rows: seq<Requirement>, a: seq<nat>, b: seq<nat>)
    requires forall p :: 0 <= p < |a| ==> a[p] < |rows|
    requires forall p :: 0 <= p < |b| ==> b[p] < |rows|
    ensures forall p :: 0 <= p < |a + b| ==> (a + b)[p] < |rows|
    ensures Permuted(rows, a + b) == Permuted(rows, a) + Permuted(rows, b)
  {
    assert forall p :: 0 <= p < |a + b| ==> (a + b)[p] == if p < |a| then a[p] else b[p - |a|];
  }

  lemma PermutedSplit(rows: seq<Requirement>, order: seq<nat>, q: nat)
    requires forall p :: 0 <= p < |order| ==> order[p] < |rows|
    requires q < |order|
    ensures Permuted(rows, order) == Permuted(rows, order[..q]) + [rows[order[q]]] + Permuted(rows, order[q + 1..])
  {
    var left := Permuted(rows, order[..q]);
    var right := Permuted(rows, order[q + 1..]);
    var whole := left + [rows[order[q]]] + right;
    forall p | 0 <= p < |order| ensures whole[p] == Permuted(rows, order)[p] {
      if p < q {
        assert whole[p] == left[p];
      } else if p > q {
        assert whole[p] == right[p - q - 1];
      }
    }
  }

  /** Only the positions `order` names matter. */
  lemma PermutedPrefix(rows: seq<Requirement>, order: seq<nat>, m: nat)
    requires m <= |rows|
    requires forall p :: 0 <= p < |order| ==> order[p] < m
    ensures Permuted(rows[..m], order) == Permuted(rows, order)
  {
  }

  /** No position is listed twice. */
  ghost predicate Distinct(order: seq<nat>) {
    forall p, q :: 0 <= p < q < |order| ==> order[p] != order[q]
  }

  /** Every position listed is below `n`. */
  ghost predicate Below(order: seq<nat>, n: nat) {
    forall p :: 0 <= p < |order| ==> order[p] < n
  }

  /** `s` without its entry at `q`. */
  function Without(s: seq<nat>, q: nat): (r: seq<nat>)
    requires q < |s|
    ensures |r| == |s| - 1
    ensures forall p :: 0 <= p < |r| ==> r[p] == if p < q then s[p] else s[p + 1]
  {
    s[..q] + s[q + 1..]
  }

  lemma SplitLast<T>(s: seq<T>)
    requires |s| > 0
    ensures s == s[..|s| - 1] + [s[|s| - 1]]
  {
  }

  /** Removing the entry for the last position from a permutation of
      `n + 1` positions leaves a permutation of `n`. */
  lemma RemoveLast(order: seq<nat>, n: nat, q: nat)
    requires IsPermutation(order, n + 1) && Distinct(order)
    requires q < |order| && order[q] == n
    ensures IsPermutation(Without(order, q), n) && Distinct(Without(order, q)) && Below(Without(order, q), n)
  {
    var rest := Without(order, q);
    forall i | 0 <= i < n ensures i in rest {
      assert i in order;
      var p :| 0 <= p < |order| && order[p] == i;
      if p < q { assert rest[p] == i; } else { assert rest[p - 1] == i; }
    }
    forall p | 0 <= p < |rest| ensures rest[p] < n {
      assert rest[p] in order;
    }
  }

  lemma BlocksForLast(rows: seq<Requirement>, sel: Selector)
    requires |rows| > 0 && forall k :: 0 <= k < |rows| ==> rows[k].hours > 0
    ensures BlocksFor(rows, sel) == BlocksFor(rows[..|rows| - 1], sel) + BlocksFor([rows[|rows| - 1]], sel)
  {
    SplitLast(rows);
    BlocksForAppend(rows[..|rows| - 1], [rows[|rows| - 1]], sel);
  }

  /** Taking the entry at `q` out of `order` takes its row's blocks out of
      the count. */
  lemma PermutedWithout(rows: seq<Requirement>, order: seq<nat>, q: nat, sel: Selector)
    requires forall k :: 0 <= k < |rows| ==> rows[k].hours > 0
    requires Below(order, |rows|) && q < |order|
    ensures forall k :: 0 <= k < |order| ==> Permuted(rows, order)[k].hours > 0
    ensures forall k :: 0 <= k < |order| - 1 ==> Permuted(rows, Without(order, q))[k].hours > 0
    ensures BlocksFor(Permuted(rows, order), sel) == BlocksFor(Permuted(rows, Without(order, q)), sel) + BlocksFor([rows[order[q]]], sel)
  {
    PermutedConcat(rows, order[..q], order[q + 1..]);
    PermutedSplit(rows, order, q);
    var x := Permuted(rows, order[..q]);
    var y := Permuted(rows, order[q + 1..]);
    BlocksForAppend(x, y, sel);
    BlocksForAppend(x, [rows[order[q]]], sel);
    BlocksForAppend(x + [rows[order[q]]], y, sel);
  }

  /** Reordering the rows does not change the number of blocks asked for
      any course, nor in all. */
  lemma {:induction false} BlocksForPermuted(rows: seq<Requirement>, order: seq<nat>, sel: Selector)
    requires forall k :: 0 <= k < |rows| ==> rows[k].hours > 0
    requires IsPermutation(order, |rows|) && Below(order, |rows|) && Distinct(order)
    ensures forall k :: 0 <= k < |order| ==> Permuted(rows, order)[k].hours > 0
    ensures BlocksFor(Permuted(rows, order), sel) == BlocksFor(rows, sel)
    decreases |rows|
  {
    if rows != [] {
      var m := |rows| - 1;
      assert m in order;
      var q :| 0 <= q < |order| && order[q] == m;
      RemoveLast(order, m, q);
      BlocksForPermuted(rows[..m], Without(order, q), sel);
      PermutedPrefix(rows, Without(order, q), m);
      PermutedWithout(rows, order, q, sel);
      BlocksForLast(rows, sel);
    }
  }

  /** The sorted task list asks for as many blocks as the curriculum, for
      every course and in all. */
  lemma TasksBlocks(setup: Setup)
    requires forall k :: 0 <= k < |setup.curriculum| ==> setup.curriculum[k].hours > 0
    ensures forall k :: 0 <= k < |Tasks(setup)| ==> Tasks(setup)[k].hours > 0
    ensures forall sel :: BlocksFor(Tasks(setup), sel) == BlocksFor(setup.curriculum, sel)
    ensures TotalBlocks(Tasks(setup)) == TotalBlocks(setup.curriculum)
  {
    var order := TaskOrder(setup);
    StablyOrderedDistinct(seq(|setup.curriculum|, i requires 0 <= i < |setup.curriculum| => TaskKey(setup, setup.curriculum[i])), order);
    assert Tasks(setup) == Permuted(setup.curriculum, order);
    forall sel {
      BlocksForPermuted(setup.curriculum, order, sel);
    }
    BlocksForEvery(Tasks(setup));
    BlocksForEvery(setup.curriculum);
  }
}

=== FILE: days.dfy ===
/** Week-day names and the lenient parser for a teacher's unavailability
    entry (`JOURS`, `JOUR_INDEX`, `ALLOWED_DAYS`, `parse_days` in app.py). */
module Days {
  import opened Text

  /** Days are identified by their French names, as in the source. */
  type DayName = string

  /** The schedulable days, Saturday excluded, in weekday order. */
  const JOURS: seq<DayName> := ["Lundi", "Mardi", "Mercredi", "Jeudi", "Vendredi", "Dimanche"]

  /** Offset of each day from Monday, Saturday included. */
  const JOUR_INDEX: map<DayName, int> :=
    map["Lundi" := 0, "Mardi" := 1, "Mercredi" := 2, "Jeudi" := 3,
        "Vendredi" := 4, "Samedi" := 5, "Dimanche" := 6]

  /** The day names a teacher may be unavailable on. */
  const ALLOWED_DAYS: set<DayName> := {"Lundi", "Mardi", "Mercredi", "Jeudi", "Vendredi", "Dimanche"}

  /** The seven days of the week, in the order of `JOUR_INDEX`. The
      scheduler keys its grids by these; `Name` gives the source's string. */
  datatype Weekday = Lundi | Mardi | Mercredi | Jeudi | Vendredi | Samedi | Dimanche

  function Name(d: Weekday): DayName {
    match d
    case Lundi => "Lundi"
    case Mardi => "Mardi"
    case Mercredi => "Mercredi"
    case Jeudi => "Jeudi"
    case Vendredi => "Vendredi"
    case Samedi => "Samedi"
    case Dimanche => "Dimanche"
  }

  /** `JOUR_INDEX[Name(d)]`: days after Monday. */
  function Index(d: Weekday): (i: int)
    ensures 0 <= i < 7
  {
    match d
    case Lundi => 0
    case Mardi => 1
    case Mercredi => 2
    case Jeudi => 3
    case Vendredi => 4
    case Samedi => 5
    case Dimanche => 6
  }

  /** `Index` is the source's `JOUR_INDEX` table. */
  lemma IndexAgrees(d: Weekday)
    ensures Name(d) in JOUR_INDEX && JOUR_INDEX[Name(d)] == Index(d)
  {
  }

  /** Only Saturday is missing from the allowed names, and the names tell
      Saturday and Sunday apart. */
  lemma AllowedNames(d: Weekday)
    ensures Name(d) in ALLOWED_DAYS <==> d != Samedi
    ensures Name(d) == "Samedi" <==> d == Samedi
    ensures Name(d) == "Dimanche" <==> d == Dimanche
  {
  }

  /** The value a teacher's unavailability cell can hold: a list (the
      default data), a free-text string (the editable table) or anything
      else (an empty or missing cell). */
  datatype DayInput = DayList(items: seq<string>) | DayText(text: string) | OtherValue

  /** `[d for d in xs if d in ALLOWED_DAYS]`. */
  function KeepAllowed(xs: seq<string>): (r: seq<DayName>)
    ensures |r| <= |xs|
    ensures forall i :: 0 <= i < |r| ==> r[i] in ALLOWED_DAYS
    ensures forall d :: d in r <==> d in xs && d in ALLOWED_DAYS
  {
    if xs == [] then []
    else (if xs[0] in ALLOWED_DAYS then [xs[0]] else []) + KeepAllowed(xs[1..])
  }

  /** One comma-separated piece, stripped and capitalised. */
  function Clean(piece: string): string {
    Capitalize(Strip(piece))
  }

  /** `[p.strip().capitalize() for p in parts if p.strip()]`. */
  function CleanPieces(parts: seq<string>): (r: seq<string>)
    ensures |r| <= |parts|
  {
    if parts == [] then []
    else (if Strip(parts[0]) != [] then [Clean(parts[0])] else []) + CleanPieces(parts[1..])
  }

  /** Every piece that is not blank after stripping contributes its
      cleaned form. */
  lemma {:induction false} CleanPiecesHas(parts: seq<string>, k: nat)
    requires k < |parts| && Strip(parts[k]) != []
    ensures Clean(parts[k]) in CleanPieces(parts)
  {
    if k > 0 {
      CleanPiecesHas(parts[1..], k - 1);
    }
  }

  /** Everything cleaning produces comes from some piece. */
  lemma {:induction false} CleanPiecesFrom(parts: seq<string>, w: string)
    requires w in CleanPieces(parts)
    ensures exists k :: 0 <= k < |parts| && Clean(parts[k]) == w
  {
    if w != Clean(parts[0]) {
      CleanPiecesFrom(parts[1..], w);
      var k :| 0 <= k < |parts[1..]| && Clean(parts[1..][k]) == w;
      assert parts[k + 1] == parts[1..][k];
    }
  }

  /** A non-empty word comes out of cleaning exactly when some piece
      cleans to it. */
  lemma CleanPiecesMembers(parts: seq<string>, w: string)
    requires w != []
    ensures w in CleanPieces(parts) <==> exists k :: 0 <= k < |parts| && Clean(parts[k]) == w
  {
    if w in CleanPieces(parts) {
      CleanPiecesFrom(parts, w);
    }
    if exists k :: 0 <= k < |parts| && Clean(parts[k]) == w {
      var k :| 0 <= k < |parts| && Clean(parts[k]) == w;
      CleanPiecesHas(parts, k);
    }
  }

  /** The shape every allowed name has: a capital ASCII letter followed by
      lower-case ASCII letters. */
  predicate Capitalized(w: string) {
    |w| > 0 && 'A' <= w[0] <= 'Z' && forall i :: 0 < i < |w| ==> 'a' <= w[i] <= 'z'
  }

  lemma AllowedCapitalized(d: DayName)
    requires d in ALLOWED_DAYS
    ensures Capitalized(d)
  {
    if d == "Lundi" {
    } else if d == "Mardi" {
    } else if d == "Mercredi" {
    } else if d == "Jeudi" {
    } else if d == "Vendredi" {
    } else {
      assert d == "Dimanche";
    }
  }

  /** `parse_days`: the allowed day names mentioned by an unavailability
      cell. A list is filtered; a string is split on commas and semicolons,
      each piece stripped and capitalised, and only allowed names kept;
      any other value means no unavailable day. */
  function ParseDays(v: DayInput): (r: seq<DayName>)
    ensures forall i :: 0 <= i < |r| ==> r[i] in ALLOWED_DAYS && r[i] != "Samedi"
    ensures v.OtherValue? ==> r == []
    ensures v.DayList? ==> forall d :: d in r <==> d in v.items && d in ALLOWED_DAYS
    ensures v.DayText? ==> forall d :: d in r <==>
      d in ALLOWED_DAYS &&
      exists k :: 0 <= k < |Pieces(v.text)| && Clean(Pieces(v.text)[k]) == d
  {
    match v
    case DayList(items) => KeepAllowed(items)
    case DayText(text) =>
      var r := KeepAllowed(CleanPieces(Pieces(text)));
      forall d | d in ALLOWED_DAYS
        ensures d in r <==> exists k :: 0 <= k < |Pieces(text)| && Clean(Pieces(text)[k]) == d
      {
        AllowedCapitalized(d);
        CleanPiecesMembers(Pieces(text), d);
      }
      r
    case OtherValue => []
  }

  /** The comma-separated pieces of a cell, `;` counting as `,`. */
  function Pieces(text: string): seq<string> {
    Split(ReplaceChar(text, ';', ','), ',')
  }

  /** How the editable table renders a list of days: `", ".join(days)`. */
  function Render(days: seq<DayName>): string {
    Join(Padded(days), ',')
  }

  /** The pieces `", ".join` separates by commas: the first name as is,
      every later one behind a space. */
  function Padded(days: seq<DayName>): (r: seq<string>)
    ensures |r| == |days|
  {
    if days == [] then [] else [days[0]] + Spaced(days[1..])
  }

  function Spaced(days: seq<DayName>): (r: seq<string>)
    ensures |r| == |days|
    ensures forall i :: 0 <= i < |days| ==> r[i] == " " + days[i]
  {
    if days == [] then [] else [" " + days[0]] + Spaced(days[1..])
  }

  /** A capitalised word has no surrounding whitespace to strip, even
      after the space `", "` puts in front of it. */
  lemma CapitalizedStrip(w: string)
    requires Capitalized(w)
    ensures Strip(w) == w && Strip(" " + w) == w
  {
    assert !IsSpace(w[0]) && !IsSpace(w[|w| - 1]);
    StripTrimmed(w);
    StripAfterSpaces(" ", w);
  }

  /** Capitalising a capitalised word changes nothing. */
  lemma CapitalizedFixed(w: string)
    requires Capitalized(w)
    ensures Capitalize(w) == w
  {
    var r := Capitalize(w);
    assert r[0] == w[0];
    assert forall i :: 0 < i < |w| ==> r[i] == Lower(w[i]) == w[i];
  }

  /** Every allowed name is already in stripped, capitalised form. */
  lemma CleanAllowed(d: DayName)
    requires d in ALLOWED_DAYS
    ensures Clean(d) == d && Clean(" " + d) == d
  {
    AllowedCapitalized(d);
    CapitalizedStrip(d);
    CapitalizedFixed(d);
  }

  /** Rendering a list of allowed days as text and parsing it back gives
      the list again, so a teacher's unavailability survives the table's
      round trip through free text. */
  lemma ParseRender(days: seq<DayName>)
    requires forall i :: 0 <= i < |days| ==> days[i] in ALLOWED_DAYS
    ensures ParseDays(DayText(Render(days))) == days
  {
    if days == [] {
      assert Pieces(Render(days)) == [[]];
      assert CleanPieces([[]]) == [];
    } else {
      PiecesOfRender(days);
      CleanPadded(days);
    }
  }

  /** A rendered list splits back into its padded pieces. */
  lemma PiecesOfRender(days: seq<DayName>)
    requires |days| > 0
    requires forall i :: 0 <= i < |days| ==> days[i] in ALLOWED_DAYS
    ensures Pieces(Render(days)) == Padded(days)
  {
    var parts := Padded(days);
    forall k | 0 <= k < |parts| ensures ';' !in parts[k] && ',' !in parts[k] {
      AllowedCapitalized(days[k]);
      if k > 0 {
        assert parts[k] == Spaced(days[1..])[k - 1] == " " + days[k];
      }
    }
    NoSemicolonJoin(parts);
    SplitJoin(parts, ',');
  }

  lemma {:induction false} NoSemicolonJoin(parts: seq<string>)
    requires forall k :: 0 <= k < |parts| ==> ';' !in parts[k]
    ensures ReplaceChar(Join(parts, ','), ';', ',') == Join(parts, ',')
  {
    var s := Join(parts, ',');
    JoinNoSemicolon(parts);
    assert ReplaceChar(s, ';', ',') == s;
  }

  lemma {:induction false} JoinNoSemicolon(parts: seq<string>)
    requires forall k :: 0 <= k < |parts| ==> ';' !in parts[k]
    ensures ';' !in Join(parts, ',')
  {
    if |parts| > 1 {
      JoinNoSemicolon(parts[1..]);
    }
  }

  lemma HeadTail<T>(s: seq<T>)
    requires s != []
    ensures [s[0]] + s[1..] == s
  {
  }

  lemma CleanPiecesCons(p: string, rest: seq<string>)
    ensures CleanPieces([p] + rest) ==
      (if Strip(p) != [] then [Clean(p)] else []) + CleanPieces(rest)
  {
    assert ([p] + rest)[1..] == rest;
  }

  lemma KeepAllowedCons(d: DayName, rest: seq<string>)
    requires d in ALLOWED_DAYS
    ensures KeepAllowed([d] + rest) == [d] + KeepAllowed(rest)
  {
    assert ([d] + rest)[1..] == rest;
  }

  /** Cleaning and filtering the padded pieces recovers the days. */
  lemma CleanPadded(days: seq<DayName>)
    requires |days| > 0
    requires forall i :: 0 <= i < |days| ==> days[i] in ALLOWED_DAYS
    ensures KeepAllowed(CleanPieces(Padded(days))) == days
  {
    CleanAllowed(days[0]);
    AllowedCapitalized(days[0]);
    CapitalizedStrip(days[0]);
    var rest := CleanPieces(Spaced(days[1..]));
    assert Padded(days) == [days[0]] + Spaced(days[1..]);
    CleanPiecesCons(days[0], Spaced(days[1..]));
    assert CleanPieces(Padded(days)) == [days[0]] + rest;
    KeepAllowedCons(days[0], rest);
    CleanSpaced(days[1..]);
    HeadTail(days);
  }

  /** The pieces `" " + day` clean and filter back to the days. */
  lemma {:induction false} CleanSpaced(days: seq<DayName>)
    requires forall i :: 0 <= i < |days| ==> days[i] in ALLOWED_DAYS
    ensures KeepAllowed(CleanPieces(Spaced(days))) == days
  {
    if days != [] {
      var d := days[0];
      CleanAllowed(d);
      AllowedCapitalized(d);
      CapitalizedStrip(d);
      var rest := CleanPieces(Spaced(days[1..]));
      assert Spaced(days) == [" " + d] + Spaced(days[1..]);
      CleanPiecesCons(" " + d, Spaced(days[1..]));
      assert CleanPieces(Spaced(days)) == [d] + rest;
      KeepAllowedCons(d, rest);
      CleanSpaced(days[1..]);
      HeadTail(days);
    }
  }

  /** A list cell holding only allowed names is returned unchanged. */
  lemma {:induction false} ParseAllowedList(days: seq<DayName>)
    requires forall i :: 0 <= i < |days| ==> days[i] in ALLOWED_DAYS
    ensures ParseDays(DayList(days)) == days
  {
    if days != [] {
      ParseAllowedList(days[1..]);
      assert days == [days[0]] + days[1..];
    }
  }
}

=== FILE: exhaustion.dfy ===
/** Why a warning means the week is full for that block. Every busy cell
    lies inside a placed block, and every placed block keeps its cells
    busy, so a grid only fills up as a run goes on: a 2-hour block that
    found no window when it was tried finds none at the end of the run
    either, and "no window" can be read off the returned assignments. */
module Exhaustion {
  import opened Days
  import opened Slots
  import opened Occupancy
  import opened Scheduler
  import opened Invariant

  // ---------------------------------------------------------------------
  // Placed blocks keep their cells busy

  /** Every cell a block of `xs` covers is busy in its `owner`'s grid: the
      converse of `Explained`. */
  ghost predicate Marks<K>(cfg: Config, m: map<K, Grids>, xs: seq<Assignment>, owner: Assignment -> K) {
    forall a, j: nat {:trigger Covers(cfg, a, a.day, j), a in xs} :: a in xs && Covers(cfg, a, a.day, j) ==>
      owner(a) in m && a.day in m[owner(a)] && j < |m[owner(a)][a.day]| && m[owner(a)][a.day][j]
  }

  /** The cells a placed block covers are exactly its booked slots. */
  lemma CoversSlot(setup: Setup, a: Assignment, j: nat)
    requires Placed(setup, a)
    ensures Covers(setup.config, a, a.day, j) <==>
      SlotOf(setup.config, a) <= j < SlotOf(setup.config, a) + Block2(setup.config.slotMinutes)
  {
    var s := setup.config.slotMinutes;
    var k := SlotOf(setup.config, a);
    assert Covers(setup.config, a, a.day, j) <==> SlotStart(k, s) <= SlotStart(j, s) < SlotStart(k, s) + 120;
    if s == 60 {
      assert Block2(s) == 2;
    } else {
      assert Block2(s) == 4;
    }
  }

  /** In a sound state every block's cells are busy in its room's, class's
      and teacher's grids. */
  lemma SoundMarks(setup: Setup, st: State)
    requires Sound(setup, st)
    ensures Marks(setup.config, st.roomBusy, st.assignments, RoomOf)
    ensures Marks(setup.config, st.classBusy, st.assignments, ClassOf)
    ensures Marks(setup.config, st.profBusy, st.assignments, ProfOf)
  {
    forall a, j: nat | a in st.assignments && Covers(setup.config, a, a.day, j)
      ensures a.room in st.roomBusy && a.day in st.roomBusy[a.room]
      ensures j < |st.roomBusy[a.room][a.day]| && st.roomBusy[a.room][a.day][j]
      ensures a.classe in st.classBusy && a.day in st.classBusy[a.classe]
      ensures j < |st.classBusy[a.classe][a.day]| && st.classBusy[a.classe][a.day][j]
      ensures a.prof in st.profBusy && a.day in st.profBusy[a.prof]
      ensures j < |st.profBusy[a.prof][a.day]| && st.profBusy[a.prof][a.day][j]
    {
      assert Placed(setup, a) && Booked(setup, st, a);
      CoversSlot(setup, a, j);
    }
  }

  /** Every earlier block is still in a longer list. */
  lemma PrefixHas(xs: seq<Assignment>, ys: seq<Assignment>, a: Assignment)
    requires xs <= ys && a in xs
    ensures a in ys
  {
    var k :| 0 <= k < |xs| && xs[k] == a;
    assert ys[k] == a;
  }

  /** A busy cell of `key`'s grid for `day` stays busy once the blocks
      that explain it are kept and keep their cells busy. */
  lemma GridKept<K>(cfg: Config, m: map<K, Grids>, xs: seq<Assignment>, owner: Assignment -> K,
                    m2: map<K, Grids>, xs2: seq<Assignment>, key: K, day: Weekday)
    requires Explained(cfg, m, xs, owner) && xs <= xs2 && Marks(cfg, m2, xs2, owner)
    requires key in m && day in m[key]
    ensures forall j :: 0 <= j < |m[key][day]| && m[key][day][j] ==>
      key in m2 && day in m2[key] && j < |m2[key][day]| && m2[key][day][j]
  {
    forall j | 0 <= j < |m[key][day]| && m[key][day][j]
      ensures key in m2 && day in m2[key] && j < |m2[key][day]| && m2[key][day][j]
    {
      assert Explains(cfg, xs, owner, key, day, j);
      var a :| a in xs && owner(a) == key && Covers(cfg, a, day, j);
      PrefixHas(xs, xs2, a);
      assert Covers(cfg, a, a.day, j);
    }
  }

  // ---------------------------------------------------------------------
  // A full week stays full

  /** The grid of `key` for `day` in `m2`, or a free grid of `n` slots
      when `m2` has none. */
  function GridOr<K>(m2: map<K, Grids>, key: K, day: Weekday, n: nat): seq<bool> {
    if key in m2 && day in m2[key] then m2[key][day] else Free(n)
  }

  /** A window free in a later grid of `key` was free in the earlier one:
      both have a full day's slots, and the earlier busy cells are kept. */
  lemma GridBack<K>(cfg: Config, m: map<K, Grids>, xs: seq<Assignment>, owner: Assignment -> K,
                    m2: map<K, Grids>, xs2: seq<Assignment>, key: K, day: Weekday, start: nat, length: nat)
    requires Explained(cfg, m, xs, owner) && xs <= xs2 && Marks(cfg, m2, xs2, owner)
    requires day in ActiveDays(cfg)
    requires key in m ==> GridsOk(cfg, m[key])
    requires key in m2 ==> GridsOk(cfg, m2[key])
    ensures FreeAt(GridOr(m2, key, day, SlotCount(cfg, day)), start, length) ==>
      FreeAt(GridOr(m, key, day, SlotCount(cfg, day)), start, length)
  {
    if key in m && day in m[key] {
      GridKept(cfg, m, xs, owner, m2, xs2, key, day);
    }
  }

  /** `GridBack` for the rooms' grids of two sound states of one run. */
  lemma RoomsBack(setup: Setup, st: State, r: State, room: Room, day: Weekday, start: nat, length: nat)
    requires Sound(setup, st) && Sound(setup, r) && st.assignments <= r.assignments
    requires day in ActiveDays(setup.config)
    ensures FreeAt(GridOr(r.roomBusy, room, day, SlotCount(setup.config, day)), start, length) ==>
      FreeAt(GridOr(st.roomBusy, room, day, SlotCount(setup.config, day)), start, length)
  {
    SoundMarks(setup, r);
    GridBack(setup.config, st.roomBusy, st.assignments, RoomOf, r.roomBusy, r.assignments, room, day, start, length);
  }

  /** `GridBack` for the classes' grids of two sound states of one run. */
  lemma ClassesBack(setup: Setup, st: State, r: State, classe: string, day: Weekday, start: nat, length: nat)
    requires Sound(setup, st) && Sound(setup, r) && st.assignments <= r.assignments
    requires day in ActiveDays(setup.config)
    ensures FreeAt(GridOr(r.classBusy, classe, day, SlotCount(setup.config, day)), start, length) ==>
      FreeAt(GridOr(st.classBusy, classe, day, SlotCount(setup.config, day)), start, length)
  {
    SoundMarks(setup, r);
    GridBack(setup.config, st.classBusy, st.assignments, ClassOf, r.classBusy, r.assignments, classe, day, start, length);
  }

  /** `GridBack` for the teachers' grids of two sound states of one run. */
  lemma ProfsBack(setup: Setup, st: State, r: State, prof: string, day: Weekday, start: nat, length: nat)
    requires Sound(setup, st) && Sound(setup, r) && st.assignments <= r.assignments
    requires day in ActiveDays(setup.config)
    ensures FreeAt(GridOr(r.profBusy, prof, day, SlotCount(setup.config, day)), start, length) ==>
      FreeAt(GridOr(st.profBusy, prof, day, SlotCount(setup.config, day)), start, length)
  {
    SoundMarks(setup, r);
    GridBack(setup.config, st.profBusy, st.assignments, ProfOf, r.profBusy, r.assignments, prof, day, start, length);
  }

  /** A window that fits in a later state `r` fitted in `st`, when each
      of its room's, class's and teacher's grids in `r` is free only where
      it was free in `st`. */
  lemma FitsBack(setup: Setup, st: State, r: State, day: Weekday, length: nat, classe: string, prof: string, ri: nat, start: nat)
    requires WellFormed(setup, st) && day in ActiveDays(setup.config)
    requires ri < |setup.rooms| ==>
      FreeAt(GridOr(r.roomBusy, setup.rooms[ri], day, SlotCount(setup.config, day)), start, length) ==>
      FreeAt(GridOr(st.roomBusy, setup.rooms[ri], day, SlotCount(setup.config, day)), start, length)
    requires FreeAt(GridOr(r.classBusy, classe, day, SlotCount(setup.config, day)), start, length) ==>
      FreeAt(GridOr(st.classBusy, classe, day, SlotCount(setup.config, day)), start, length)
    requires FreeAt(GridOr(r.profBusy, prof, day, SlotCount(setup.config, day)), start, length) ==>
      FreeAt(GridOr(st.profBusy, prof, day, SlotCount(setup.config, day)), start, length)
    ensures Fits(setup, r, day, length, classe, prof, ri, start) ==> Fits(setup, st, day, length, classe, prof, ri, start)
  {
    if Fits(setup, r, day, length, classe, prof, ri, start) {
      assert GridsOk(setup.config, st.roomBusy[setup.rooms[ri]]);
    }
  }

  /** A 2-hour block of `x`'s class and teacher fits in room `ri` from
      slot `start` of `day`. */
  ghost predicate BlockFits(setup: Setup, st: State, day: Weekday, x: Warning, ri: nat, start: nat) {
    Fits(setup, st, day, Block2(setup.config.slotMinutes), x.classe, x.prof, ri, start)
  }

  /** What a warning for `x` reports: no listed room has a window for a
      2-hour block of `x`'s class and teacher on any active day the teacher
      is available. */
  ghost predicate NoWindow(setup: Setup, st: State, x: Warning) {
    forall d: Weekday, i: nat, s: nat :: d in ActiveDays(setup.config) && Name(d) !in Indispo(setup, x.prof) ==>
      !BlockFits(setup, st, d, x, i, s)
  }

  /** A full week stays full for the rest of the run. */
  lemma NoWindowStays(setup: Setup, st: State, r: State, x: Warning)
    requires Sound(setup, st) && Sound(setup, r) && st.assignments <= r.assignments
    ensures NoWindow(setup, st, x) ==> NoWindow(setup, r, x)
  {
    if NoWindow(setup, st, x) {
      forall d: Weekday, i: nat, s: nat | d in ActiveDays(setup.config) && Name(d) !in Indispo(setup, x.prof)
        ensures !BlockFits(setup, r, d, x, i, s)
      {
        var n := Block2(setup.config.slotMinutes);
        assert !BlockFits(setup, st, d, x, i, s);
        if i < |setup.rooms| {
          RoomsBack(setup, st, r, setup.rooms[i], d, s, n);
        }
        ClassesBack(setup, st, r, x.classe, d, s, n);
        ProfsBack(setup, st, r, x.prof, d, s, n);
        FitsBack(setup, st, r, d, n, x.classe, x.prof, i, s);
      }
    }
  }

  /** Every warning of `ws` still reports a full week later in the run. */
  lemma WarningsStay(setup: Setup, st: State, r: State, ws: seq<Warning>)
    requires Sound(setup, st) && Sound(setup, r) && st.assignments <= r.assignments
    requires forall x :: x in ws ==> NoWindow(setup, st, x)
    ensures forall x :: x in ws ==> NoWindow(setup, r, x)
  {
    forall x | x in ws ensures NoWindow(setup, r, x) {
      NoWindowStays(setup, st, r, x);
    }
  }

  /** The warning one attempt may issue reports a full week. */
  lemma PlaceBlockFull(setup: Setup, st: State, task: Requirement)
    requires Ready(setup, st) && task in setup.curriculum
    ensures PlaceBlock(setup, st, task).warnings != [] ==>
      NoWindow(setup, PlaceBlock(setup, st, task).state, Warning(task.classe, task.matiere, task.prof))
  {
    var r := PlaceBlock(setup, st, task);
    PlaceBlockWarns(setup, st, task);
    if r.warnings != [] {
      assert r.state == st && r.warnings == [Warning(task.classe, task.matiere, task.prof)];
    }
  }

  // ---------------------------------------------------------------------
  // A full week, read off the timetable

  /** Some block of `xs` in room `room`, in `x`'s class or with `x`'s
      teacher covers slot `j` of `d`. */
  ghost predicate Taken(cfg: Config, xs: seq<Assignment>, room: Room, x: Warning, d: Weekday, j: nat) {
    exists a :: a in xs && Covers(cfg, a, d, j) && (a.room == room || a.classe == x.classe || a.prof == x.prof)
  }

  /** The 2-hour window from slot `s` of `d` in room `room` clashes with a
      block of `xs`. */
  ghost predicate WindowTaken(cfg: Config, xs: seq<Assignment>, room: Room, x: Warning, d: Weekday, s: nat) {
    exists j :: s <= j < s + Block2(cfg.slotMinutes) && Taken(cfg, xs, room, x, d, j)
  }

  /** A full week for `x`, in terms of the blocks placed: every 2-hour
      window inside the grid of an active day the teacher is available, in
      every listed room, clashes with a placed block of that room, of
      `x`'s class or of `x`'s teacher. */
  ghost predicate Unplaceable(setup: Setup, xs: seq<Assignment>, x: Warning) {
    forall d: Weekday, ri: nat, s: nat ::
      && d in ActiveDays(setup.config) && Name(d) !in Indispo(setup, x.prof)
      && ri < |setup.rooms| && s + Block2(setup.config.slotMinutes) <= SlotCount(setup.config, d)
      ==> WindowTaken(setup.config, xs, setup.rooms[ri], x, d, s)
  }

  /** A busy cell of a grid of `m` in a window is taken by a block of its
      owner. */
  lemma BusyTaken<K>(cfg: Config, m: map<K, Grids>, xs: seq<Assignment>, owner: Assignment -> K,
                     key: K, day: Weekday, s: nat, j: nat, room: Room, x: Warning)
    requires Explained(cfg, m, xs, owner) && key in m && day in m[key] && j < |m[key][day]| && m[key][day][j]
    requires s <= j < s + Block2(cfg.slotMinutes)
    requires forall a :: owner(a) == key ==> a.room == room || a.classe == x.classe || a.prof == x.prof
    ensures WindowTaken(cfg, xs, room, x, day, s)
  {
    assert Explains(cfg, xs, owner, key, day, j);
    var a :| a in xs && owner(a) == key && Covers(cfg, a, day, j);
    assert Taken(cfg, xs, room, x, day, j);
  }

  /** A window inside the day that is not free in `key`'s grid is taken
      by a block of `key`, when every busy cell lies inside a block. */
  lemma GridTaken<K>(cfg: Config, m: map<K, Grids>, xs: seq<Assignment>, owner: Assignment -> K,
                     key: K, day: Weekday, s: nat, room: Room, x: Warning)
    requires Explained(cfg, m, xs, owner) && day in ActiveDays(cfg)
    requires key in m ==> GridsOk(cfg, m[key])
    requires forall a :: owner(a) == key ==> a.room == room || a.classe == x.classe || a.prof == x.prof
    ensures s + Block2(cfg.slotMinutes) <= SlotCount(cfg, day) ==>
      !FreeAt(GridOr(m, key, day, SlotCount(cfg, day)), s, Block2(cfg.slotMinutes)) ==>
      WindowTaken(cfg, xs, room, x, day, s)
  {
    var n := Block2(cfg.slotMinutes);
    if key in m && day in m[key] && s + n <= |m[key][day]| && !WindowFree(m[key][day], s, n) {
      var j :| s <= j < s + n && m[key][day][j];
      BusyTaken(cfg, m, xs, owner, key, day, s, j, room, x);
    }
  }

  /** A window inside the day that does not fit is taken: a cell of it is
      busy, and a busy cell lies inside a block. */
  lemma MissTaken(setup: Setup, st: State, x: Warning, d: Weekday, ri: nat, s: nat)
    requires WellFormed(setup, st) && AllExplained(setup, st) && d in ActiveDays(setup.config)
    requires ri < |setup.rooms| && s + Block2(setup.config.slotMinutes) <= SlotCount(setup.config, d)
    requires !BlockFits(setup, st, d, x, ri, s)
    ensures WindowTaken(setup.config, st.assignments, setup.rooms[ri], x, d, s)
  {
    var cfg := setup.config;
    var room := setup.rooms[ri];
    assert GridsOk(cfg, st.roomBusy[room]);
    GridTaken(cfg, st.roomBusy, st.assignments, RoomOf, room, d, s, room, x);
    GridTaken(cfg, st.classBusy, st.assignments, ClassOf, x.classe, d, s, room, x);
    GridTaken(cfg, st.profBusy, st.assignments, ProfOf, x.prof, d, s, room, x);
  }

  /** A warning whose week is full in a sound state is unplaceable against
      that state's blocks. */
  lemma FullUnplaceable(setup: Setup, st: State, x: Warning)
    requires Sound(setup, st) && NoWindow(setup, st, x)
    ensures Unplaceable(setup, st.assignments, x)
  {
    forall d: Weekday, ri: nat, s: nat |
      && d in ActiveDays(setup.config) && Name(d) !in Indispo(setup, x.prof)
      && ri < |setup.rooms| && s + Block2(setup.config.slotMinutes) <= SlotCount(setup.config, d)
      ensures WindowTaken(setup.config, st.assignments, setup.rooms[ri], x, d, s)
    {
      assert !BlockFits(setup, st, d, x, ri, s);
      MissTaken(setup, st, x, d, ri, s);
    }
  }

  /** A window holding a cell that a block of `xs` covers is not free in
      the grid of that block's owner. */
  lemma GridMiss<K>(cfg: Config, m: map<K, Grids>, xs: seq<Assignment>, owner: Assignment -> K,
                    a: Assignment, j: nat, s: nat, length: nat)
    requires Marks(cfg, m, xs, owner) && a in xs && Covers(cfg, a, a.day, j) && s <= j < s + length
    ensures !FreeAt(GridOr(m, owner(a), a.day, SlotCount(cfg, a.day)), s, length)
  {
    assert m[owner(a)][a.day][j];
  }

  /** A window that fits is free in its room's, class's and teacher's
      grids. */
  lemma FitsGrids(setup: Setup, st: State, day: Weekday, length: nat, classe: string, prof: string, ri: nat, start: nat)
    requires ri < |setup.rooms|
    ensures Fits(setup, st, day, length, classe, prof, ri, start) ==>
      && FreeAt(GridOr(st.roomBusy, setup.rooms[ri], day, SlotCount(setup.config, day)), start, length)
      && FreeAt(GridOr(st.classBusy, classe, day, SlotCount(setup.config, day)), start, length)
      && FreeAt(GridOr(st.profBusy, prof, day, SlotCount(setup.config, day)), start, length)
  {
  }

  /** A window that clashes with a placed block does not fit: the block
      keeps the clashing cell busy in its room's, class's or teacher's grid. */
  lemma TakenMiss(setup: Setup, st: State, x: Warning, d: Weekday, ri: nat, s: nat)
    requires ri < |setup.rooms|
    requires Marks(setup.config, st.roomBusy, st.assignments, RoomOf)
    requires Marks(setup.config, st.classBusy, st.assignments, ClassOf)
    requires Marks(setup.config, st.profBusy, st.assignments, ProfOf)
    requires WindowTaken(setup.config, st.assignments, setup.rooms[ri], x, d, s)
    ensures !BlockFits(setup, st, d, x, ri, s)
  {
    var cfg := setup.config;
    var room := setup.rooms[ri];
    var n := Block2(cfg.slotMinutes);
    var j :| s <= j < s + n && Taken(cfg, st.assignments, room, x, d, j);
    var a :| a in st.assignments && Covers(cfg, a, d, j) && (a.room == room || a.classe == x.classe || a.prof == x.prof);
    FitsGrids(setup, st, d, n, x.classe, x.prof, ri, s);
    assert a.day == d;
    if a.room == room {
      GridMiss(cfg, st.roomBusy, st.assignments, RoomOf, a, j, s, n);
      assert RoomOf(a) == room;
    } else if a.classe == x.classe {
      GridMiss(cfg, st.classBusy, st.assignments, ClassOf, a, j, s, n);
      assert ClassOf(a) == x.classe;
    } else {
      GridMiss(cfg, st.profBusy, st.assignments, ProfOf, a, j, s, n);
      assert ProfOf(a) == x.prof;
    }
  }

  /** In a sound state, a week is full for `x` exactly when every 2-hour
      window of it clashes with a placed block. */
  lemma UnplaceableFull(setup: Setup, st: State, x: Warning)
    requires Sound(setup, st)
    ensures Unplaceable(setup, st.assignments, x) <==> NoWindow(setup, st, x)
  {
    if NoWindow(setup, st, x) {
      FullUnplaceable(setup, st, x);
    }
    if Unplaceable(setup, st.assignments, x) {
      SoundMarks(setup, st);
      forall d: Weekday, i: nat, s: nat | d in ActiveDays(setup.config) && Name(d) !in Indispo(setup, x.prof)
        ensures !BlockFits(setup, st, d, x, i, s)
      {
        if i < |setup.rooms| {
          assert GridsOk(setup.config, st.roomBusy[setup.rooms[i]]);
          if s + Block2(setup.config.slotMinutes) <= SlotCount(setup.config, d) {
            TakenMiss(setup, st, x, d, i, s);
          }
        }
      }
    }
  }

  /** Every warning of `ws` whose week is full in a sound state is
      unplaceable against that state's blocks. */
  lemma WarningsUnplaceable(setup: Setup, st: State, ws: seq<Warning>)
    requires Sound(setup, st) && forall x :: x in ws ==> NoWindow(setup, st, x)
    ensures forall x :: x in ws ==> Unplaceable(setup, st.assignments, x)
  {
    forall x | x in ws ensures Unplaceable(setup, st.assignments, x) {
      FullUnplaceable(setup, st, x);
    }
  }
}

=== FILE: invariant.dfy ===
/** The invariant a run of the allocator keeps: every placed block sits
    on an active day the teacher is available, inside 09:00–18:00, lasts
    two hours, and is booked in its room's, class's and teacher's grids;
    no two overlapping blocks share a room, a class or a teacher; and the
    per-day hour counters equal the minutes placed; and every busy cell of
    a grid lies inside a placed block of that room, class or teacher. */
module Invariant {
  import opened Days
  import opened Slots
  import opened Occupancy
  import opened Scheduler

  // ---------------------------------------------------------------------
  // The invariant

  /** The slot at which an assignment starts, recovered from its time. */
  function SlotOf(cfg: Config, a: Assignment): int {
    (a.start - DayBase(a.day) - SlotStart(0, cfg.slotMinutes)) / cfg.slotMinutes
  }

  /** A placed block: on an active day the teacher is available, aligned to
      a slot, two hours long and inside the day's grid, in a listed room,
      for a curriculum row. */
  ghost predicate Placed(setup: Setup, a: Assignment) {
    var s := setup.config.slotMinutes;
    var k := SlotOf(setup.config, a);
    && a.day in ActiveDays(setup.config)
    && Name(a.day) !in Indispo(setup, a.prof)
    && 0 <= k && k + Block2(s) <= SlotCount(setup.config, a.day)
    && a.start == DayBase(a.day) + SlotStart(k, s)
    && a.minutes == 120 && a.end == a.start + 120
    && a.room in setup.rooms
    && exists t :: t in setup.curriculum && t.classe == a.classe && t.matiere == a.matiere && t.prof == a.prof
  }

  /** The block's slots are booked in its room's, class's and teacher's
      grids for its day. */
  ghost predicate Booked(setup: Setup, st: State, a: Assignment) {
    var k := SlotOf(setup.config, a);
    var n := Block2(setup.config.slotMinutes);
    && a.room in st.roomBusy && a.day in st.roomBusy[a.room]
    && a.classe in st.classBusy && a.day in st.classBusy[a.classe]
    && a.prof in st.profBusy && a.day in st.profBusy[a.prof]
    && Covered(st.roomBusy[a.room][a.day], k, n)
    && Covered(st.classBusy[a.classe][a.day], k, n)
    && Covered(st.profBusy[a.prof][a.day], k, n)
  }

  /** Two blocks on the same day whose time ranges intersect. */
  predicate Overlap(a: Assignment, b: Assignment) {
    a.day == b.day && a.start < b.end && b.start < a.end
  }

  /** Overlapping blocks share no room, no class and no teacher. */
  predicate Apart(a: Assignment, b: Assignment) {
    Overlap(a, b) ==> a.room != b.room && a.classe != b.classe && a.prof != b.prof
  }

  ghost predicate NoClash(xs: seq<Assignment>) {
    forall i, j :: 0 <= i < j < |xs| ==> Apart(xs[i], xs[j])
  }

  /** Minutes of class `c` placed on day `d`. */
  function MinutesOn(xs: seq<Assignment>, c: string, d: Weekday): int {
    if xs == [] then 0
    else
      var last := xs[|xs| - 1];
      MinutesOn(xs[..|xs| - 1], c, d) + (if last.classe == c && last.day == d then last.minutes else 0)
  }

  /** `class_hours_per_day` holds, for every class and active day, the
      minutes placed there. */
  ghost predicate HoursTracked(setup: Setup, st: State) {
    forall c, d :: c in st.classHours && d in ActiveDays(setup.config) ==>
      d in st.classHours[c] && st.classHours[c][d] == MinutesOn(st.assignments, c, d)
  }

  /** Every block placed so far is placed and booked as it should be. */
  ghost predicate AllPlaced(setup: Setup, st: State) {
    forall a :: a in st.assignments ==> Placed(setup, a) && Booked(setup, st, a)
  }

  function RoomOf(a: Assignment): Room {
    a.room
  }

  function ClassOf(a: Assignment): string {
    a.classe
  }

  function ProfOf(a: Assignment): string {
    a.prof
  }

  /** Cell `i` of `d`'s grid starts inside `a`'s time span. */
  predicate Covers(cfg: Config, a: Assignment, d: Weekday, i: nat) {
    a.day == d && a.start <= DayBase(d) + SlotStart(i, cfg.slotMinutes) < a.end
  }

  /** Cell `i` of `x`'s grid for `d` lies inside a block of `xs` whose
      `owner` is `x`. */
  ghost predicate Explains<K>(cfg: Config, xs: seq<Assignment>, owner: Assignment -> K, x: K, d: Weekday, i: nat) {
    exists a :: a in xs && owner(a) == x && Covers(cfg, a, d, i)
  }

  /** Every busy cell of `m` lies inside a block of `xs` whose `owner` is
      the grid's key. */
  ghost predicate Explained<K>(cfg: Config, m: map<K, Grids>, xs: seq<Assignment>, owner: Assignment -> K) {
    forall x, d, i: nat {:trigger Explains(cfg, xs, owner, x, d, i)} ::
      x in m && d in m[x] && i < |m[x][d]| && m[x][d][i] ==> Explains(cfg, xs, owner, x, d, i)
  }

  /** Every busy room, class and teacher cell lies inside an assignment of
      that room, class or teacher: grids are never marked except by
      `assign_block`. */
  ghost predicate AllExplained(setup: Setup, st: State) {
    && Explained(setup.config, st.roomBusy, st.assignments, RoomOf)
    && Explained(setup.config, st.classBusy, st.assignments, ClassOf)
    && Explained(setup.config, st.profBusy, st.assignments, ProfOf)
  }

  ghost predicate Sound(setup: Setup, st: State) {
    && Ready(setup, st)
    && AllPlaced(setup, st)
    && NoClash(st.assignments)
    && HoursTracked(setup, st)
    && AllExplained(setup, st)
  }

  /** What `find_window` promises of the window it returns for a 2-hour
      block: a listed room, inside the day's grid, and free in the room's,
      the class's and the teacher's grids. */
  ghost predicate FreeWindow(setup: Setup, st: State, task: Requirement, day: Weekday, w: Window)
    requires WellFormed(setup, st) && day in ActiveDays(setup.config)
  {
    var n := Block2(setup.config.slotMinutes);
    && w.roomIndex < |setup.rooms|
    && w.start + n <= SlotCount(setup.config, day)
    && WindowFree(st.roomBusy[setup.rooms[w.roomIndex]][day], w.start, n)
    && WindowFree(ClassGrid(setup, st, task.classe, day), w.start, n)
    && WindowFree(ProfGrid(setup, st, task.prof, day), w.start, n)
  }

  /** The window `[start, start + length)` of `day` exists in the room's,
      the class's and the teacher's grids. */
  ghost predicate CanBook(st: State, classe: string, prof: string, day: Weekday, room: Room, start: nat, length: nat) {
    && room in st.roomBusy && day in st.roomBusy[room] && start + length <= |st.roomBusy[room][day]|
    && classe in st.classBusy && day in st.classBusy[classe] && start + length <= |st.classBusy[classe][day]|
    && prof in st.profBusy && day in st.profBusy[prof] && start + length <= |st.profBusy[prof][day]|
  }
}

=== FILE: occupancy.dfy ===
/** One day's occupancy grid of one room, teacher or class: a boolean per
    slot, `true` once the slot is booked. */
module Occupancy {

  /** `[False] * n`: a grid with every slot free. */
  function Free(n: nat): (g: seq<bool>)
    ensures |g| == n
    ensures forall i :: 0 <= i < n ==> !g[i]
  {
    seq(n, i => false)
  }

  /** `not any(g[start:start+length])`: the window is entirely free. */
  predicate WindowFree(g: seq<bool>, start: nat, length: nat)
    requires start + length <= |g|
  {
    forall i :: start <= i < start + length ==> !g[i]
  }

  /** The marking loop of `assign_block` on one grid: sets slots
      `from .. end-1` to `true`, one at a time. */
  function MarkFrom(g: seq<bool>, from: nat, end: nat): (r: seq<bool>)
    requires from <= end <= |g|
    ensures |r| == |g|
    ensures forall i :: 0 <= i < |g| ==> r[i] == (g[i] || from <= i < end)
    decreases end - from
  {
    if from == end then g else MarkFrom(g[from := true], from + 1, end)
  }

  /** Books the window `[start, start + length)`: exactly those slots become
      `true`, every other slot keeps its value. */
  function MarkWindow(g: seq<bool>, start: nat, length: nat): (r: seq<bool>)
    requires start + length <= |g|
    ensures |r| == |g|
    ensures forall i :: start <= i < start + length ==> r[i]
    ensures forall i :: 0 <= i < |g| && !(start <= i < start + length) ==> r[i] == g[i]
  {
    MarkFrom(g, start, start + length)
  }

  /** Marking a window and then asking whether it is free gives `false`
      for any non-empty window, and marking never frees a slot. */
  lemma MarkedNotFree(g: seq<bool>, start: nat, length: nat)
    requires start + length <= |g| && length > 0
    ensures !WindowFree(MarkWindow(g, start, length), start, length)
    ensures forall i :: 0 <= i < |g| && g[i] ==> MarkWindow(g, start, length)[i]
  {
    assert MarkWindow(g, start, length)[start];
  }

  /** Every slot of `[k, k + n)` lies inside the grid and is booked. */
  predicate Covered(g: seq<bool>, k: int, n: nat) {
    0 <= k && k + n <= |g| && forall i :: k <= i < k + n ==> g[i]
  }

  /** Marking a window keeps every booked range booked. */
  lemma MarkKeepsCovered(g: seq<bool>, start: nat, length: nat, k: int, n: nat)
    requires start + length <= |g| && Covered(g, k, n)
    ensures Covered(MarkWindow(g, start, length), k, n)
  {
    var r := MarkWindow(g, start, length);
    forall i | k <= i < k + n ensures r[i] {
      assert g[i];
    }
  }

  /** The marked window is booked. */
  lemma MarkCovers(g: seq<bool>, start: nat, length: nat)
    requires start + length <= |g|
    ensures Covered(MarkWindow(g, start, length), start, length)
  {
  }

  /** A free window and a booked range of the same grid do not meet. */
  lemma FreeApart(g: seq<bool>, start: nat, length: nat, k: int, n: nat)
    requires start + length <= |g| && WindowFree(g, start, length) && Covered(g, k, n)
    requires length > 0 && n > 0
    ensures k + n <= start || start + length <= k
  {
    var i := if k < start then start else k;
    assert k <= i < k + n ==> g[i];
    assert start <= i < start + length ==> !g[i];
  }
}

=== FILE: preservation.dfy ===
/** Why the invariant of `Invariant` holds throughout a run: at the start,
    and after every call of `assign_block` that `schedule` makes. */
module Preservation {
  import opened Results
  import opened Days
  import opened Slots
  import opened Occupancy
  import opened Scheduler
  import opened Invariant

  // ---------------------------------------------------------------------
  // Arithmetic of aligned blocks

  /** Slot `j` of a window of `n` slots from `k` starts inside the window's
      two hours. */
  lemma WindowCell(k: nat, j: nat, n: nat, w: Granularity)
    requires k <= j < k + n && n * w == 120
    ensures SlotStart(k, w) <= SlotStart(j, w) < SlotStart(k, w) + 120
  {
    if w == 60 {
      assert n == 2;
    } else {
      assert n == 4;
    }
  }

  /** The slot of a block made at slot `k` is `k`. */
  lemma SlotOfMade(setup: Setup, classe: string, matiere: string, prof: string, day: Weekday, room: Room, k: nat, length: nat)
    requires k < SlotCount(setup.config, day)
    ensures SlotOf(setup.config, MakeAssignment(setup, classe, matiere, prof, day, room, k, length)) == k
  {
    var s := setup.config.slotMinutes;
    var a := MakeAssignment(setup, classe, matiere, prof, day, room, k, length);
    assert a.start - DayBase(day) - SlotStart(0, s) == k * s;
    if s == 60 {
      assert (k * 60) / 60 == k;
    } else {
      assert (k * 30) / 30 == k;
    }
  }

  /** Two aligned two-hour blocks overlap in time exactly when their slot
      ranges meet. */
  lemma OverlapSlots(cfg: Config, a: Assignment, b: Assignment, ka: nat, kb: nat)
    requires a.day == b.day
    requires a.start == DayBase(a.day) + SlotStart(ka, cfg.slotMinutes) && a.end == a.start + 120
    requires b.start == DayBase(b.day) + SlotStart(kb, cfg.slotMinutes) && b.end == b.start + 120
    ensures Overlap(a, b) <==> ka < kb + Block2(cfg.slotMinutes) && kb < ka + Block2(cfg.slotMinutes)
  {
    var n := Block2(cfg.slotMinutes);
    if cfg.slotMinutes == 60 {
      assert n == 2;
    } else {
      assert n == 4;
    }
  }

  /** A block inside the grid ends by 18:00. */
  lemma BlockEnds(cfg: Config, day: Weekday, k: nat)
    requires k + Block2(cfg.slotMinutes) <= SlotsPerDay(cfg.slotMinutes)
    ensures SlotStart(k, cfg.slotMinutes) + 120 <= END_HOUR * 60
  {
    if cfg.slotMinutes == 60 {
      assert Block2(cfg.slotMinutes) == 2;
    } else {
      assert Block2(cfg.slotMinutes) == 4;
    }
  }

  // ---------------------------------------------------------------------
  // `assign_block`

  /** The record `assign_block` appends covers the cells it books. */
  lemma MadeCovers(setup: Setup, classe: string, matiere: string, prof: string, day: Weekday, room: Room, start: nat, length: nat)
    requires start < SlotCount(setup.config, day) && length * setup.config.slotMinutes == 120
    ensures forall i :: start <= i < start + length ==>
      Covers(setup.config, MakeAssignment(setup, classe, matiere, prof, day, room, start, length), day, i)
  {
    forall i | start <= i < start + length
      ensures Covers(setup.config, MakeAssignment(setup, classe, matiere, prof, day, room, start, length), day, i)
    {
      WindowCell(start, i, length, setup.config.slotMinutes);
    }
  }

  /** Booking the cells of a new block `b` keeps every busy cell explained. */
  lemma BookExplained<K>(cfg: Config, m: map<K, Grids>, xs: seq<Assignment>, owner: Assignment -> K,
                         key: K, day: Weekday, start: nat, length: nat, b: Assignment)
    requires key in m && day in m[key] && start + length <= |m[key][day]|
    requires Explained(cfg, m, xs, owner)
    requires owner(b) == key && forall i :: start <= i < start + length ==> Covers(cfg, b, day, i)
    ensures Explained(cfg, Book(m, key, day, start, length), xs + [b], owner)
  {
    var r := Book(m, key, day, start, length);
    BookChangesWindow(m, key, day, start, length);
    forall x, d, i: nat | x in r && d in r[x] && i < |r[x][d]| && r[x][d][i]
      ensures Explains(cfg, xs + [b], owner, x, d, i)
    {
      if m[x][d][i] {
        assert Explains(cfg, xs, owner, x, d, i);
        var a :| a in xs && owner(a) == x && Covers(cfg, a, d, i);
        assert a in xs + [b];
      } else {
        assert b in xs + [b];
      }
    }
  }

  /** `assign_block` keeps every busy cell explained: the cells it marks
      lie inside the record it appends. */
  lemma AssignBlockExplained(setup: Setup, st: State, classe: string, matiere: string, prof: string,
                             day: Weekday, room: Room, start: nat, length: nat)
    requires CanAssign(setup, st, classe, prof, day, room, start, length)
    requires length * setup.config.slotMinutes == 120
    requires AllExplained(setup, st)
    ensures AllExplained(setup, AssignBlock(setup, st, classe, matiere, prof, day, room, start, length))
  {
    assert GridsOk(setup.config, st.roomBusy[room]);
    assert GridsOk(setup.config, st.classBusy[classe]);
    assert GridsOk(setup.config, st.profBusy[prof]);
    var b := MakeAssignment(setup, classe, matiere, prof, day, room, start, length);
    MadeCovers(setup, classe, matiere, prof, day, room, start, length);
    BookExplained(setup.config, st.roomBusy, st.assignments, RoomOf, room, day, start, length, b);
    BookExplained(setup.config, st.classBusy, st.assignments, ClassOf, classe, day, start, length, b);
    BookExplained(setup.config, st.profBusy, st.assignments, ProfOf, prof, day, start, length, b);
  }

  // ---------------------------------------------------------------------
  // One placement keeps the invariant

  /** The situation in which `schedule` calls `assign_block`: a state with
      every curriculum row's grids, a curriculum row, an active day the
      teacher is available, and a window as `find_window` returns it. */
  ghost predicate Chosen(setup: Setup, st: State, task: Requirement, day: Weekday, w: Window) {
    && Ready(setup, st) && task in setup.curriculum
    && day in ActiveDays(setup.config) && Name(day) !in Indispo(setup, task.prof)
    && FreeWindow(setup, st, task, day, w)
  }

  /** The call `assign_block` receives in that situation is well-defined. */
  lemma ChosenCanAssign(setup: Setup, st: State, task: Requirement, day: Weekday, w: Window)
    requires Chosen(setup, st, task, day, w)
    ensures w.roomIndex < |setup.rooms|
    ensures CanAssign(setup, st, task.classe, task.prof, day, setup.rooms[w.roomIndex], w.start, Block2(setup.config.slotMinutes))
    ensures var room := setup.rooms[w.roomIndex];
      var end := w.start + Block2(setup.config.slotMinutes);
      && day in st.roomBusy[room] && end <= |st.roomBusy[room][day]|
      && day in st.classBusy[task.classe] && end <= |st.classBusy[task.classe][day]|
      && day in st.profBusy[task.prof] && end <= |st.profBusy[task.prof][day]|
      && day in st.classHours[task.classe]
  {
    var room := setup.rooms[w.roomIndex];
    assert GridsOk(setup.config, st.roomBusy[room]);
    assert GridsOk(setup.config, st.classBusy[task.classe]);
    assert GridsOk(setup.config, st.profBusy[task.prof]);
  }

  function Placing(setup: Setup, st: State, task: Requirement, day: Weekday, w: Window): (r: State)
    requires Chosen(setup, st, task, day, w)
  {
    ChosenCanAssign(setup, st, task, day, w);
    AssignBlock(setup, st, task.classe, task.matiere, task.prof, day, setup.rooms[w.roomIndex], w.start, Block2(setup.config.slotMinutes))
  }

  function NewBlock(setup: Setup, st: State, task: Requirement, day: Weekday, w: Window): (a: Assignment)
    requires Chosen(setup, st, task, day, w)
  {
    ChosenCanAssign(setup, st, task, day, w);
    MakeAssignment(setup, task.classe, task.matiere, task.prof, day, setup.rooms[w.roomIndex], w.start, Block2(setup.config.slotMinutes))
  }

  /** The new block is placed as the invariant demands. */
  lemma NewBlockPlaced(setup: Setup, st: State, task: Requirement, day: Weekday, w: Window)
    requires Chosen(setup, st, task, day, w)
    ensures SlotOf(setup.config, NewBlock(setup, st, task, day, w)) == w.start
    ensures Placed(setup, NewBlock(setup, st, task, day, w))
  {
    ChosenCanAssign(setup, st, task, day, w);
    var b := NewBlock(setup, st, task, day, w);
    SlotOfMade(setup, task.classe, task.matiere, task.prof, day, setup.rooms[w.roomIndex], w.start, Block2(setup.config.slotMinutes));
    assert b.minutes == 120;
    assert task.classe == b.classe && task.matiere == b.matiere && task.prof == b.prof;
  }

  /** The new block's slots are booked afterwards. */
  lemma NewBlockBooked(setup: Setup, st: State, task: Requirement, day: Weekday, w: Window)
    requires Chosen(setup, st, task, day, w)
    ensures Placed(setup, NewBlock(setup, st, task, day, w))
    ensures Booked(setup, Placing(setup, st, task, day, w), NewBlock(setup, st, task, day, w))
  {
    ChosenCanAssign(setup, st, task, day, w);
    NewBlockPlaced(setup, st, task, day, w);
    var n := Block2(setup.config.slotMinutes);
    MarkCovers(st.roomBusy[setup.rooms[w.roomIndex]][day], w.start, n);
    MarkCovers(st.classBusy[task.classe][day], w.start, n);
    MarkCovers(st.profBusy[task.prof][day], w.start, n);
  }

  /** Booking a window keeps every booked range of every grid booked. */
  lemma BookKeepsCovered<K>(m: map<K, Grids>, key: K, day: Weekday, start: nat, length: nat, x: K, d: Weekday, k: int, n: nat)
    requires key in m && day in m[key] && start + length <= |m[key][day]|
    requires x in m && d in m[x] && Covered(m[x][d], k, n)
    ensures x in Book(m, key, day, start, length) && d in Book(m, key, day, start, length)[x]
    ensures Covered(Book(m, key, day, start, length)[x][d], k, n)
  {
    if x == key && d == day {
      MarkKeepsCovered(m[x][d], start, length, k, n);
    }
  }

  /** Blocks placed earlier stay booked after further bookings. */
  lemma OldBlocksBooked(setup: Setup, st: State, hours: map<string, map<Weekday, int>>, xs: seq<Assignment>,
                        classe: string, prof: string, day: Weekday, room: Room, start: nat, length: nat)
    requires CanBook(st, classe, prof, day, room, start, length)
    requires forall a :: a in st.assignments ==> Booked(setup, st, a)
    ensures var r := State(
        Book(st.roomBusy, room, day, start, length),
        Book(st.profBusy, prof, day, start, length),
        Book(st.classBusy, classe, day, start, length),
        hours, xs);
      forall a :: a in st.assignments ==> Booked(setup, r, a)
  {
    var r := State(
      Book(st.roomBusy, room, day, start, length),
      Book(st.profBusy, prof, day, start, length),
      Book(st.classBusy, classe, day, start, length),
      hours, xs);
    forall a | a in st.assignments ensures Booked(setup, r, a) {
      var k := SlotOf(setup.config, a);
      var n := Block2(setup.config.slotMinutes);
      assert Booked(setup, st, a);
      BookKeepsCovered(st.roomBusy, room, day, start, length, a.room, a.day, k, n);
      BookKeepsCovered(st.classBusy, classe, day, start, length, a.classe, a.day, k, n);
      BookKeepsCovered(st.profBusy, prof, day, start, length, a.prof, a.day, k, n);
    }
  }

  /** The new block overlaps no earlier block in its room, class or
      teacher: its window was free in all three grids, and each earlier
      block's slots are booked there. */
  lemma NewBlockApart(setup: Setup, st: State, task: Requirement, day: Weekday, w: Window)
    requires Chosen(setup, st, task, day, w) && AllPlaced(setup, st)
    ensures forall a :: a in st.assignments ==> Apart(a, NewBlock(setup, st, task, day, w))
  {
    ChosenCanAssign(setup, st, task, day, w);
    NewBlockPlaced(setup, st, task, day, w);
    var b := NewBlock(setup, st, task, day, w);
    var n := Block2(setup.config.slotMinutes);
    forall a | a in st.assignments ensures Apart(a, b) {
      assert Placed(setup, a) && Booked(setup, st, a);
      var ka := SlotOf(setup.config, a);
      if a.day == day {
        OverlapSlots(setup.config, a, b, ka, w.start);
        if a.room == b.room {
          FreeApart(st.roomBusy[a.room][day], w.start, n, ka, n);
        }
        if a.classe == b.classe {
          FreeApart(st.classBusy[a.classe][day], w.start, n, ka, n);
        }
        if a.prof == b.prof {
          FreeApart(st.profBusy[a.prof][day], w.start, n, ka, n);
        }
      }
    }
  }

  lemma NoClashAppend(xs: seq<Assignment>, b: Assignment)
    requires NoClash(xs)
    requires forall a :: a in xs ==> Apart(a, b)
    ensures NoClash(xs + [b])
  {
    var ys := xs + [b];
    forall i, j | 0 <= i < j < |ys| ensures Apart(ys[i], ys[j]) {
      assert ys[i] == xs[i];
      if j < |xs| {
        assert ys[j] == xs[j];
      } else {
        assert xs[i] in xs;
      }
    }
  }

  /** Appending a block adds its minutes to its class and day only. */
  lemma MinutesOnAppend(xs: seq<Assignment>, b: Assignment, c: string, d: Weekday)
    ensures MinutesOn(xs + [b], c, d) == MinutesOn(xs, c, d) + if b.classe == c && b.day == d then b.minutes else 0
  {
    assert (xs + [b])[..|xs + [b]| - 1] == xs;
  }

  /** Adding a block's minutes to its class and day keeps the counters
      equal to the minutes placed. */
  lemma HoursAfterAppend(setup: Setup, st: State, r: State, b: Assignment)
    requires b.classe in st.classHours && b.day in st.classHours[b.classe]
    requires r.classHours == AddMinutes(st.classHours, b.classe, b.day, b.minutes)
    requires r.assignments == st.assignments + [b]
    requires HoursTracked(setup, st)
    ensures HoursTracked(setup, r)
  {
    forall c, d | c in r.classHours && d in ActiveDays(setup.config)
      ensures d in r.classHours[c] && r.classHours[c][d] == MinutesOn(r.assignments, c, d)
    {
      MinutesOnAppend(st.assignments, b, c, d);
    }
  }

  /** `assign_block` rewrites the three grids and the counter of the
      chosen class, teacher, room and day, and appends the block. */
  lemma PlacingState(setup: Setup, st: State, task: Requirement, day: Weekday, w: Window)
    requires Chosen(setup, st, task, day, w)
    ensures w.roomIndex < |setup.rooms|
    ensures var n := Block2(setup.config.slotMinutes);
      var room := setup.rooms[w.roomIndex];
      && CanBook(st, task.classe, task.prof, day, room, w.start, n)
      && room in st.roomBusy && day in st.roomBusy[room] && w.start + n <= |st.roomBusy[room][day]|
      && task.classe in st.classBusy && day in st.classBusy[task.classe] && w.start + n <= |st.classBusy[task.classe][day]|
      && task.prof in st.profBusy && day in st.profBusy[task.prof] && w.start + n <= |st.profBusy[task.prof][day]|
      && task.classe in st.classHours && day in st.classHours[task.classe]
      && Placing(setup, st, task, day, w) == State(
           Book(st.roomBusy, room, day, w.start, n),
           Book(st.profBusy, task.prof, day, w.start, n),
           Book(st.classBusy, task.classe, day, w.start, n),
           AddMinutes(st.classHours, task.classe, day, n * setup.config.slotMinutes),
           st.assignments + [NewBlock(setup, st, task, day, w)])
    ensures Placed(setup, NewBlock(setup, st, task, day, w))
    ensures Booked(setup, Placing(setup, st, task, day, w), NewBlock(setup, st, task, day, w))
  {
    NewBlockBooked(setup, st, task, day, w);
  }

  /** Placing appends exactly the new block. */
  lemma PlacingAppends(setup: Setup, st: State, task: Requirement, day: Weekday, w: Window)
    requires Chosen(setup, st, task, day, w)
    ensures Placing(setup, st, task, day, w).assignments == st.assignments + [NewBlock(setup, st, task, day, w)]
  {
    ChosenCanAssign(setup, st, task, day, w);
  }

  /** Blocks placed earlier keep their slots booked after placing. */
  lemma PlacingKeepsBooked(setup: Setup, st: State, task: Requirement, day: Weekday, w: Window)
    requires Chosen(setup, st, task, day, w) && AllPlaced(setup, st)
    ensures forall a :: a in st.assignments ==> Booked(setup, Placing(setup, st, task, day, w), a)
  {
    PlacingState(setup, st, task, day, w);
    var n := Block2(setup.config.slotMinutes);
    OldBlocksBooked(setup, st, AddMinutes(st.classHours, task.classe, day, n * setup.config.slotMinutes),
      st.assignments + [NewBlock(setup, st, task, day, w)],
      task.classe, task.prof, day, setup.rooms[w.roomIndex], w.start, n);
  }

  /** A block appended to blocks that were all placed and booked keeps
      every block placed and booked, once each is booked in `r`. */
  lemma AllPlacedAppend(setup: Setup, st: State, r: State, b: Assignment)
    requires r.assignments == st.assignments + [b]
    requires AllPlaced(setup, st)
    requires forall a :: a in st.assignments ==> Booked(setup, r, a)
    requires Placed(setup, b) && Booked(setup, r, b)
    ensures AllPlaced(setup, r)
  {
    forall a | a in r.assignments ensures Placed(setup, a) && Booked(setup, r, a) {
      if a != b {
        assert a in st.assignments;
      }
    }
  }

  lemma PlacingBlocks(setup: Setup, st: State, task: Requirement, day: Weekday, w: Window)
    requires Chosen(setup, st, task, day, w) && AllPlaced(setup, st)
    ensures AllPlaced(setup, Placing(setup, st, task, day, w))
  {
    PlacingAppends(setup, st, task, day, w);
    NewBlockBooked(setup, st, task, day, w);
    PlacingKeepsBooked(setup, st, task, day, w);
    AllPlacedAppend(setup, st, Placing(setup, st, task, day, w), NewBlock(setup, st, task, day, w));
  }

  lemma PlacingApart(setup: Setup, st: State, task: Requirement, day: Weekday, w: Window)
    requires Chosen(setup, st, task, day, w) && AllPlaced(setup, st) && NoClash(st.assignments)
    ensures NoClash(Placing(setup, st, task, day, w).assignments)
  {
    PlacingAppends(setup, st, task, day, w);
    NewBlockApart(setup, st, task, day, w);
    NoClashAppend(st.assignments, NewBlock(setup, st, task, day, w));
  }

  lemma PlacingHours(setup: Setup, st: State, task: Requirement, day: Weekday, w: Window)
    requires Chosen(setup, st, task, day, w) && HoursTracked(setup, st)
    ensures HoursTracked(setup, Placing(setup, st, task, day, w))
  {
    PlacingState(setup, st, task, day, w);
    NewBlockPlaced(setup, st, task, day, w);
    HoursAfterAppend(setup, st, Placing(setup, st, task, day, w), NewBlock(setup, st, task, day, w));
  }

  lemma PlacingExplained(setup: Setup, st: State, task: Requirement, day: Weekday, w: Window)
    requires Chosen(setup, st, task, day, w) && AllExplained(setup, st)
    ensures AllExplained(setup, Placing(setup, st, task, day, w))
  {
    ChosenCanAssign(setup, st, task, day, w);
    AssignBlockExplained(setup, st, task.classe, task.matiere, task.prof, day,
      setup.rooms[w.roomIndex], w.start, Block2(setup.config.slotMinutes));
  }

  /** One call of `assign_block` as `schedule` makes it keeps the whole
      invariant. */
  lemma PlacingSound(setup: Setup, st: State, task: Requirement, day: Weekday, w: Window)
    requires Chosen(setup, st, task, day, w) && Sound(setup, st)
    ensures Sound(setup, Placing(setup, st, task, day, w))
  {
    PlacingBlocks(setup, st, task, day, w);
    PlacingApart(setup, st, task, day, w);
    PlacingHours(setup, st, task, day, w);
    PlacingExplained(setup, st, task, day, w);
  }

  // ---------------------------------------------------------------------
  // The run keeps the invariant

  /** One iteration of the block loop keeps the invariant: either nothing
      changes (a warning), or `assign_block` runs on a day of
      `pick_day_for_class`'s list with the window `find_window` gave. */
  lemma PlaceBlockSound(setup: Setup, st: State, task: Requirement)
    requires Sound(setup, st) && task in setup.curriculum
    ensures Sound(setup, PlaceBlock(setup, st, task).state)
  {
    var length := Block2(setup.config.slotMinutes);
    var days := PickDays(setup, st, task.classe, task.prof);
    match FirstPlacement(setup, st, days, length, task.classe, task.prof)
    case None =>
    case Some(p) =>
      assert p.day in days;
      assert Chosen(setup, st, task, p.day, p.window);
      PlacingSound(setup, st, task, p.day, p.window);
  }

  /** No cell of any grid is busy. */
  ghost predicate Idle<K>(m: map<K, Grids>) {
    forall x, d, i :: x in m && d in m[x] && 0 <= i < |m[x][d]| ==> !m[x][d][i]
  }

  /** Adding one free grid keeps a map idle. */
  lemma GrownIdle<K>(m: map<K, Grids>, r: map<K, Grids>, key: K)
    requires Idle(m) && r.Keys == m.Keys + {key}
    requires forall x :: x in m ==> r[x] == m[x]
    requires key !in m ==> forall d, i :: d in r[key] && 0 <= i < |r[key][d]| ==> !r[key][d][i]
    ensures Idle(r)
  {
  }

  /** The `ensure_*` loop only adds free grids. */
  lemma {:induction false} EnsureAllIdle(setup: Setup, st: State, rows: seq<Requirement>)
    requires WellFormed(setup, st) && Idle(st.classBusy) && Idle(st.profBusy)
    ensures Idle(EnsureAll(setup, st, rows).classBusy) && Idle(EnsureAll(setup, st, rows).profBusy)
    decreases |rows|
  {
    if rows != [] {
      var mid := EnsureProf(setup, st, rows[0].prof);
      var next := EnsureClass(setup, mid, rows[0].classe);
      GrownIdle(st.profBusy, mid.profBusy, rows[0].prof);
      GrownIdle(mid.classBusy, next.classBusy, rows[0].classe);
      EnsureAllIdle(setup, next, rows[1..]);
    }
  }

  /** The state the first loop of `schedule` leaves satisfies the
      invariant: nothing placed, nothing booked, every counter at zero. */
  lemma StartSound(setup: Setup)
    ensures Sound(setup, EnsureAll(setup, InitialState(setup), setup.curriculum))
  {
    var st := EnsureAll(setup, InitialState(setup), setup.curriculum);
    assert st.assignments == [];
    assert ZeroHours(setup.config, st.classHours);
    EnsureAllIdle(setup, InitialState(setup), setup.curriculum);
  }
}

=== FILE: results.dfy ===
/** Failure-carrying result types used by the scheduler model. */
module Results {

  /** A value that may be missing, as Python's `None` return of a search. */
  datatype Option<+T> = None | Some(value: T)

  /** The outcome of an operation that can raise: `Ok` carries the value,
      `Err` the message of the exception the source raises. */
  datatype Result<+T, +E> = Ok(value: T) | Err(error: E)
}

=== FILE: scheduler.dfy ===
/** The greedy weekly timetable allocator (`Scheduler` in app.py): the
    run's fixed inputs (`Setup`), its evolving occupancy state (`State`)
    and the steps `ensure_prof`, `ensure_class`, `pick_day_for_class`,
    `find_window`, `assign_block` and `schedule`, as pure functions that
    thread the state through. */
module Scheduler {
  import opened Results
  import opened Days
  import opened Slots
  import opened Occupancy
  import opened StableSort

  /** A room, identified by its site (`Lieu`) and name (`Salle`). */
  datatype Room = Room(location: string, name: string)

  /** One row of the teachers' table: a name and its unavailability cell. */
  datatype ProfRow = ProfRow(prof: string, unavailability: DayInput)

  /** One curriculum row: class, subject, teacher and weekly hours. */
  datatype Requirement = Requirement(classe: string, matiere: string, prof: string, hours: int)

  /** A placed block. `start` and `end` are minutes from Monday 00:00 of the
      planned week; `minutes` is its length. */
  datatype Assignment = Assignment(
    day: Weekday, start: int, end: int,
    classe: string, matiere: string, prof: string,
    room: Room, minutes: int)

  /** A block that found no free window: class, subject and teacher. */
  datatype Warning = Warning(classe: string, matiere: string, prof: string)

  /** The result of a run that passed validation. */
  datatype Timetable = Timetable(assignments: seq<Assignment>, warnings: seq<Warning>)

  /** A window found by the search: the position of the room in the room
      list, and the first slot. */
  datatype Window = Window(roomIndex: nat, start: nat)

  /** Per-day occupancy grids of one room, teacher or class. */
  type Grids = map<Weekday, seq<bool>>

  /** What a run fixes at construction: settings, rooms in their listed
      order, each teacher's unavailable days, and the curriculum rows with
      positive hours. */
  datatype Setup = Setup(
    config: Config,
    rooms: seq<Room>,
    profIndispo: map<string, set<DayName>>,
    curriculum: seq<Requirement>)

  /** What a run mutates: the three kinds of occupancy grids, each class's
      minutes taught per day, and the assignments placed so far. */
  datatype State = State(
    roomBusy: map<Room, Grids>,
    profBusy: map<string, Grids>,
    classBusy: map<string, Grids>,
    classHours: map<string, map<Weekday, int>>,
    assignments: seq<Assignment>)

  const HOURS_ERROR: string := "Toutes les valeurs 'Heures' doivent être des multiples de 2 (blocs de 2h)."

  /** Thresholds of the day-preference bands, in minutes (3.5 h and 6 h). */
  const LIGHT_LIMIT: int := 210
  const HEAVY_LIMIT: int := 360

  const MINUTES_PER_DAY: int := 1440

  // ---------------------------------------------------------------------
  // Days and slots of a run

  /** `self.days`: Monday to Friday, then Sunday when it is enabled. */
  function ActiveDays(cfg: Config): (days: seq<Weekday>)
    ensures forall d :: d in days <==> d != Samedi && (d != Dimanche || cfg.includeSunday)
    ensures InWeekOrder(days)
  {
    var days := [Lundi, Mardi, Mercredi, Jeudi, Vendredi] + (if cfg.includeSunday then [Dimanche] else []);
    ActiveDaysCover(cfg.includeSunday, days);
    days
  }

  lemma ActiveDaysCover(includeSunday: bool, days: seq<Weekday>)
    requires days == [Lundi, Mardi, Mercredi, Jeudi, Vendredi] + (if includeSunday then [Dimanche] else [])
    ensures forall d :: d != Samedi && (d != Dimanche || includeSunday) ==> d in days
  {
    forall d | d != Samedi && (d != Dimanche || includeSunday) ensures d in days {
      match d
      case Lundi => assert days[0] == d;
      case Mardi => assert days[1] == d;
      case Mercredi => assert days[2] == d;
      case Jeudi => assert days[3] == d;
      case Vendredi => assert days[4] == d;
      case Dimanche => assert days[5] == d;
    }
  }

  /** With Sunday enabled `self.days` is `JOURS`; without it, `JOURS`
      less its last day. */
  lemma ActiveDaysNames(cfg: Config)
    ensures |ActiveDays(cfg)| == if cfg.includeSunday then |JOURS| else |JOURS| - 1
    ensures forall i :: 0 <= i < |ActiveDays(cfg)| ==> Name(ActiveDays(cfg)[i]) == JOURS[i]
  {
  }

  /** Number of slots of `day` in this run (`len(self.day_slots[day])`):
      the full grid on an active day, none otherwise. `SlotCountAgrees`
      ties it to the slot list itself. */
  function SlotCount(cfg: Config, day: Weekday): (n: nat)
    ensures day in ActiveDays(cfg) ==> n == SlotsPerDay(cfg.slotMinutes) > 0
    ensures day !in ActiveDays(cfg) ==> n == 0
  {
    if day == Samedi || (day == Dimanche && !cfg.includeSunday) then 0
    else SlotsPerDay(cfg.slotMinutes)
  }

  lemma SlotCountAgrees(cfg: Config, day: Weekday)
    ensures SlotCount(cfg, day) == |DaySlots(Name(day), cfg.includeSunday, cfg.slotMinutes)|
  {
    AllowedNames(day);
  }

  /** Minutes from Monday 00:00 to the start of `day`. */
  function DayBase(day: Weekday): int {
    Index(day) * MINUTES_PER_DAY
  }

  // ---------------------------------------------------------------------
  // Construction (`__init__`)

  function ToSet(xs: seq<DayName>): (s: set<DayName>)
    ensures forall d :: d in s <==> d in xs
  {
    set d | d in xs
  }

  /** Row `i` is the last row naming its teacher. */
  ghost predicate LastRowOf(rows: seq<ProfRow>, i: nat)
    requires i < |rows|
  {
    forall j :: i < j < |rows| ==> rows[j].prof != rows[i].prof
  }

  /** The set of days a teacher's unavailability cell parses to. */
  function RowDays(row: ProfRow): (days: set<DayName>)
    ensures days <= ALLOWED_DAYS
    ensures forall d :: d in days <==> d in ParseDays(row.unavailability)
  {
    ToSet(ParseDays(row.unavailability))
  }

  /** The teachers named in the table. */
  function ProfNames(rows: seq<ProfRow>): set<string> {
    set i | 0 <= i < |rows| :: rows[i].prof
  }

  /** `prof_indispo`: each teacher of the table mapped to the set of days
      its unavailability cell parses to. When a teacher has several rows the
      last one counts, as in the source's dict comprehension; the map is
      built from the end, so a row is skipped when a later one names the
      same teacher. */
  function IndispoMap(rows: seq<ProfRow>): (m: map<string, set<DayName>>)
    ensures m.Keys == ProfNames(rows)
    ensures forall p :: p in m ==> m[p] <= ALLOWED_DAYS
    ensures forall i :: 0 <= i < |rows| && LastRowOf(rows, i) ==> m[rows[i].prof] == RowDays(rows[i])
  {
    if rows == [] then map[]
    else
      var m := IndispoMap(rows[1..]);
      IndispoMapStep(rows, m);
      if rows[0].prof in m then m else m[rows[0].prof := RowDays(rows[0])]
  }

  lemma IndispoMapStep(rows: seq<ProfRow>, m: map<string, set<DayName>>)
    requires rows != []
    requires m.Keys == ProfNames(rows[1..])
    requires forall i :: 0 <= i < |rows[1..]| && LastRowOf(rows[1..], i) ==> m[rows[1..][i].prof] == RowDays(rows[1..][i])
    ensures ProfNames(rows) == m.Keys + {rows[0].prof}
    ensures forall i :: 0 < i < |rows| && LastRowOf(rows, i) ==> m[rows[i].prof] == RowDays(rows[i])
    ensures rows[0].prof in m ==> !LastRowOf(rows, 0)
  {
    forall i | 0 < i < |rows| && LastRowOf(rows, i) ensures m[rows[i].prof] == RowDays(rows[i]) {
      assert rows[1..][i - 1] == rows[i];
      assert LastRowOf(rows[1..], i - 1);
    }
    forall x | x in ProfNames(rows) ensures x in m.Keys + {rows[0].prof} {
      var i :| 0 <= i < |rows| && rows[i].prof == x;
      if i > 0 {
        assert rows[1..][i - 1] == rows[i];
      }
    }
    forall x | x in m.Keys ensures x in ProfNames(rows) {
      var i :| 0 <= i < |rows[1..]| && rows[1..][i].prof == x;
      assert rows[i + 1] == rows[1..][i];
    }
    if rows[0].prof in m {
      var i :| 0 <= i < |rows[1..]| && rows[1..][i].prof == rows[0].prof;
      assert rows[i + 1] == rows[1..][i];
    }
  }

  /** `self.prof_indispo.get(prof, set())`. */
  function Indispo(setup: Setup, prof: string): set<DayName> {
    if prof in setup.profIndispo then setup.profIndispo[prof] else {}
  }

  /** `curriculum_df[curriculum_df["Heures"] > 0]`: the rows with positive
      hours, in their original order. */
  function PositiveRows(rows: seq<Requirement>): (r: seq<Requirement>)
    ensures |r| <= |rows|
    ensures forall k :: 0 <= k < |r| ==> r[k].hours > 0
    ensures forall x :: x in r <==> x in rows && x.hours > 0
  {
    if rows == [] then []
    else (if rows[0].hours > 0 then [rows[0]] else []) + PositiveRows(rows[1..])
  }

  /** The mask keeps order and duplicates: filtering a concatenation
      filters each part. */
  lemma {:induction false} PositiveRowsAppend(a: seq<Requirement>, b: seq<Requirement>)
    ensures PositiveRows(a + b) == PositiveRows(a) + PositiveRows(b)
    decreases |a|
  {
    if a == [] {
      assert a + b == b;
    } else {
      assert (a + b)[0] == a[0];
      assert (a + b)[1..] == a[1..] + b;
      PositiveRowsAppend(a[1..], b);
    }
  }

  /** One row is kept iff its hours are positive. */
  lemma PositiveRowsOne(x: Requirement)
    ensures PositiveRows([x]) == if x.hours > 0 then [x] else []
  {
    assert [x][1..] == [];
  }

  function MakeSetup(cfg: Config, rooms: seq<Room>, profs: seq<ProfRow>, curriculum: seq<Requirement>): Setup {
    Setup(cfg, rooms, IndispoMap(profs), PositiveRows(curriculum))
  }

  /** Every active day present, sized to that day's slot count. */
  ghost predicate GridsOk(cfg: Config, g: Grids) {
    forall d :: d in ActiveDays(cfg) ==> d in g && |g[d]| == SlotCount(cfg, d)
  }

  /** `{d: [False]*len(self.day_slots[d]) for d in self.days}`. */
  function EmptyGrids(cfg: Config): (g: Grids)
    ensures GridsOk(cfg, g)
    ensures forall d :: d in g ==> d in ActiveDays(cfg)
    ensures forall d, i :: d in g && 0 <= i < |g[d]| ==> !g[d][i]
  {
    map d | d in ActiveDays(cfg) :: Free(SlotCount(cfg, d))
  }

  /** The shape invariant of the state: every listed room has grids, and
      every grid and hour counter covers every active day at full size. */
  ghost predicate WellFormed(setup: Setup, st: State) {
    && (forall rm :: rm in setup.rooms ==> rm in st.roomBusy)
    && (forall rm :: rm in st.roomBusy ==> GridsOk(setup.config, st.roomBusy[rm]))
    && (forall p :: p in st.profBusy ==> GridsOk(setup.config, st.profBusy[p]))
    && (forall c :: c in st.classBusy ==> GridsOk(setup.config, st.classBusy[c]))
    && (forall c, d :: c in st.classHours && d in ActiveDays(setup.config) ==> d in st.classHours[c])
  }

  /** The state `__init__` leaves: free grids for every listed room, no
      teacher or class yet, no assignment. */
  function InitialState(setup: Setup): (st: State)
    ensures WellFormed(setup, st)
    ensures st.profBusy == map[] && st.classBusy == map[] && st.classHours == map[]
    ensures st.assignments == []
    ensures st.roomBusy.Keys == set rm | rm in setup.rooms
    ensures forall rm, d, i :: rm in st.roomBusy && d in st.roomBusy[rm] && 0 <= i < |st.roomBusy[rm][d]| ==>
      !st.roomBusy[rm][d][i]
  {
    State(map rm | rm in setup.rooms :: EmptyGrids(setup.config), map[], map[], map[], [])
  }

  // ---------------------------------------------------------------------
  // Lazy creation (`ensure_prof`, `ensure_class`)

  /** `ensure_prof`: gives a teacher free grids on first use and leaves a
      known teacher untouched; nothing else changes. */
  function EnsureProf(setup: Setup, st: State, prof: string): (r: State)
    ensures prof in r.profBusy
    ensures prof in st.profBusy ==> r == st
    ensures r.profBusy.Keys == st.profBusy.Keys + {prof}
    ensures prof !in st.profBusy ==>
      && r == st.(profBusy := r.profBusy)
      && r.profBusy.Keys == st.profBusy.Keys + {prof}
      && (forall p :: p in st.profBusy ==> r.profBusy[p] == st.profBusy[p])
      && GridsOk(setup.config, r.profBusy[prof])
      && (forall d, i :: d in r.profBusy[prof] && 0 <= i < |r.profBusy[prof][d]| ==> !r.profBusy[prof][d][i])
    ensures WellFormed(setup, st) ==> WellFormed(setup, r)
  {
    if prof in st.profBusy then st
    else st.(profBusy := st.profBusy[prof := EmptyGrids(setup.config)])
  }

  /** Every class's counter reads zero minutes on every active day. */
  ghost predicate ZeroHours(cfg: Config, hours: map<string, map<Weekday, int>>) {
    forall c, d :: c in hours && d in ActiveDays(cfg) ==> d in hours[c] && hours[c][d] == 0
  }

  /** `ensure_class`: gives a class free grids and zero hour counters on
      first use, each created only if missing; nothing else changes. */
  function EnsureClass(setup: Setup, st: State, classe: string): (r: State)
    ensures classe in r.classBusy && classe in r.classHours
    ensures classe in st.classBusy && classe in st.classHours ==> r == st
    ensures r.roomBusy == st.roomBusy && r.profBusy == st.profBusy && r.assignments == st.assignments
    ensures classe in st.classBusy ==> r.classBusy == st.classBusy
    ensures classe in st.classHours ==> r.classHours == st.classHours
    ensures forall c :: c in st.classBusy ==> c in r.classBusy && r.classBusy[c] == st.classBusy[c]
    ensures forall c :: c in st.classHours ==> c in r.classHours && r.classHours[c] == st.classHours[c]
    ensures r.classBusy.Keys == st.classBusy.Keys + {classe}
    ensures r.classHours.Keys == st.classHours.Keys + {classe}
    ensures classe !in st.classBusy ==>
      GridsOk(setup.config, r.classBusy[classe]) &&
      forall d, i :: d in r.classBusy[classe] && 0 <= i < |r.classBusy[classe][d]| ==> !r.classBusy[classe][d][i]
    ensures classe !in st.classHours ==>
      forall d :: d in ActiveDays(setup.config) ==> d in r.classHours[classe] && r.classHours[classe][d] == 0
    ensures ZeroHours(setup.config, st.classHours) ==> ZeroHours(setup.config, r.classHours)
    ensures WellFormed(setup, st) ==> WellFormed(setup, r)
  {
    var busy := if classe in st.classBusy then st.classBusy else st.classBusy[classe := EmptyGrids(setup.config)];
    var hours := if classe in st.classHours then st.classHours
      else st.classHours[classe := map d | d in ActiveDays(setup.config) :: 0];
    st.(classBusy := busy, classHours := hours)
  }

  // ---------------------------------------------------------------------
  // Day preference (`pick_day_for_class`)

  /** The band of a day already holding `minutes` of the class: light
      below 3.5 h, medium below 6 h, heavy from 6 h on. */
  function Band(minutes: int): (b: int)
    ensures 0 <= b <= 2
    ensures b == 0 <==> minutes < LIGHT_LIMIT
    ensures b == 2 <==> minutes >= HEAVY_LIMIT
  {
    if minutes < LIGHT_LIMIT then 0 else if minutes < HEAVY_LIMIT then 1 else 2
  }

  /** The sort key `score(d)`: band first, then the minutes themselves. */
  function DayScore(minutes: int): Key {
    Key(Band(minutes), minutes)
  }

  /** The bands never reorder days: one score is below another iff its
      minutes are, so sorting by `score` sorts by hours taught. */
  lemma DayScoreOrder(a: int, b: int)
    ensures KeyLess(DayScore(a), DayScore(b)) <==> a < b
    ensures DayScore(a) == DayScore(b) <==> a == b
  {
  }

  /** Days of `days` (in their order) whose name is not excluded and that
      have at least one slot. */
  function CandidateDays(cfg: Config, days: seq<Weekday>, excluded: set<DayName>): (r: seq<Weekday>)
    ensures forall d :: d in r <==> d in days && Name(d) !in excluded && SlotCount(cfg, d) > 0
  {
    if days == [] then []
    else
      var rest := CandidateDays(cfg, days[1..], excluded);
      assert forall d :: d in days ==> d == days[0] || d in days[1..];
      (if Name(days[0]) !in excluded && SlotCount(cfg, days[0]) > 0 then [days[0]] else []) + rest
  }

  /** Days listed in strictly increasing weekday order. */
  predicate InWeekOrder(days: seq<Weekday>) {
    forall i, j :: 0 <= i < j < |days| ==> DayBase(days[i]) < DayBase(days[j])
  }

  lemma {:induction false} InWeekOrderCons(d: Weekday, rest: seq<Weekday>)
    requires InWeekOrder(rest)
    requires forall e :: e in rest ==> DayBase(d) < DayBase(e)
    ensures InWeekOrder([d] + rest)
  {
    var r := [d] + rest;
    forall i, j | 0 <= i < j < |r| ensures DayBase(r[i]) < DayBase(r[j]) {
      assert r[j] == rest[j - 1];
      if i > 0 {
        assert r[i] == rest[i - 1];
      } else {
        assert rest[j - 1] in rest;
      }
    }
  }

  /** Filtering keeps the weekday order. */
  lemma {:induction false} CandidateDaysOrdered(cfg: Config, days: seq<Weekday>, excluded: set<DayName>)
    requires InWeekOrder(days)
    ensures InWeekOrder(CandidateDays(cfg, days, excluded))
  {
    if days != [] {
      var rest := CandidateDays(cfg, days[1..], excluded);
      assert InWeekOrder(days[1..]) by {
        forall i, j | 0 <= i < j < |days[1..]| ensures DayBase(days[1..][i]) < DayBase(days[1..][j]) {
          assert days[1..][i] == days[i + 1] && days[1..][j] == days[j + 1];
        }
      }
      CandidateDaysOrdered(cfg, days[1..], excluded);
      if Name(days[0]) !in excluded && SlotCount(cfg, days[0]) > 0 {
        forall d | d in rest ensures DayBase(days[0]) < DayBase(d) {
          var j :| 0 <= j < |days[1..]| && days[1..][j] == d;
          assert days[j + 1] == d;
        }
        InWeekOrderCons(days[0], rest);
      }
    }
  }

  /** The hours recorded for `classe` are available on every active day. */
  ghost predicate HasHours(setup: Setup, st: State, classe: string) {
    classe in st.classHours &&
    forall d :: d in ActiveDays(setup.config) ==> d in st.classHours[classe]
  }

  /** `pick_day_for_class`: the days the teacher is available that have
      slots, lightest band first, fewer minutes first within a band, and in
      weekday order (Python's stable sort) on equal scores. */
  function PickDays(setup: Setup, st: State, classe: string, prof: string): (r: seq<Weekday>)
    requires HasHours(setup, st, classe)
    ensures forall d :: d in r <==>
      d in ActiveDays(setup.config) && Name(d) !in Indispo(setup, prof) && SlotCount(setup.config, d) > 0
    ensures forall p, q :: 0 <= p < q < |r| ==>
      DayPreferred(st.classHours[classe], r[p], r[q])
  {
    var hours := st.classHours[classe];
    var cands := CandidateDays(setup.config, ActiveDays(setup.config), Indispo(setup, prof));
    CandidateDaysOrdered(setup.config, ActiveDays(setup.config), Indispo(setup, prof));
    var keys := seq(|cands|, i requires 0 <= i < |cands| => DayScore(hours[cands[i]]));
    var order := SortIndices(keys);
    var r := seq(|order|, p requires 0 <= p < |order| => cands[order[p]]);
    SortedDaysMembers(cands, order, r);
    SortedDaysOrdered(hours, cands, keys, order, r);
    r
  }

  /** Day `a` goes before day `b`: a strictly smaller score, or the same
      score and an earlier weekday. */
  predicate DayPreferred(hours: map<Weekday, int>, a: Weekday, b: Weekday)
    requires a in hours && b in hours
  {
    var sa := DayScore(hours[a]);
    var sb := DayScore(hours[b]);
    KeyLess(sa, sb) || (sa == sb && DayBase(a) < DayBase(b))
  }

  lemma SortedDaysMembers(cands: seq<Weekday>, order: seq<nat>, r: seq<Weekday>)
    requires IsPermutation(order, |cands|) && forall p :: 0 <= p < |order| ==> order[p] < |cands|
    requires |r| == |order| && forall p :: 0 <= p < |order| ==> r[p] == cands[order[p]]
    ensures forall d :: d in r <==> d in cands
  {
    forall d | d in r ensures d in cands {
      var p :| 0 <= p < |r| && r[p] == d;
    }
    forall i | 0 <= i < |cands| ensures cands[i] in r {
      assert i in order;
      var p :| 0 <= p < |order| && order[p] == i;
      assert r[p] == cands[i];
    }
  }

  lemma SortedDaysOrdered(hours: map<Weekday, int>, cands: seq<Weekday>, keys: seq<Key>, order: seq<nat>, r: seq<Weekday>)
    requires forall d :: d in cands ==> d in hours
    requires InWeekOrder(cands)
    requires |keys| == |cands| && forall i :: 0 <= i < |cands| ==> keys[i] == DayScore(hours[cands[i]])
    requires IsPermutation(order, |cands|) && StablyOrdered(keys, order)
    requires |r| == |order| && forall p :: 0 <= p < |order| ==> r[p] == cands[order[p]]
    ensures forall p, q :: 0 <= p < q < |r| ==> r[p] in hours && r[q] in hours && DayPreferred(hours, r[p], r[q])
  {
    forall p, q | 0 <= p < q < |r| ensures r[p] in hours && r[q] in hours && DayPreferred(hours, r[p], r[q]) {
      assert Before(keys, order[p], order[q]);
      assert keys[order[p]] == DayScore(hours[r[p]]);
      assert keys[order[q]] == DayScore(hours[r[q]]);
    }
  }

  // ---------------------------------------------------------------------
  // Window search (`find_window`)

  /** The grid a class has on `day`; a class never seen reads as free, as
      the `setdefault` in the source provides. */
  function ClassGrid(setup: Setup, st: State, classe: string, day: Weekday): seq<bool> {
    if classe in st.classBusy && day in st.classBusy[classe] then st.classBusy[classe][day]
    else Free(SlotCount(setup.config, day))
  }

  /** The grid a teacher has on `day`, free if the teacher is unknown. */
  function ProfGrid(setup: Setup, st: State, prof: string, day: Weekday): seq<bool> {
    if prof in st.profBusy && day in st.profBusy[prof] then st.profBusy[prof][day]
    else Free(SlotCount(setup.config, day))
  }

  /** `g[start:start+length]` lies inside `g` and is all free. */
  predicate FreeAt(g: seq<bool>, start: nat, length: nat) {
    start + length <= |g| && WindowFree(g, start, length)
  }

  /** Room number `ri` of the list, the class and the teacher are all free
      on `day` for `length` slots from `start`. */
  predicate Fits(setup: Setup, st: State, day: Weekday, length: nat, classe: string, prof: string, ri: nat, start: nat) {
    && ri < |setup.rooms|
    && setup.rooms[ri] in st.roomBusy && day in st.roomBusy[setup.rooms[ri]]
    && FreeAt(st.roomBusy[setup.rooms[ri]][day], start, length)
    && FreeAt(ClassGrid(setup, st, classe, day), start, length)
    && FreeAt(ProfGrid(setup, st, prof, day), start, length)
  }

  /** `(ri, start)` comes before window `w` in the search order: by room
      position, then by start slot. */
  predicate SearchedBefore(ri: nat, start: nat, w: Window) {
    ri < w.roomIndex || (ri == w.roomIndex && start < w.start)
  }

  /** The inner loop of `find_window`: the first start from `start` on at
      which room `ri` fits. */
  function ScanStarts(setup: Setup, st: State, day: Weekday, length: nat, classe: string, prof: string, ri: nat, start: nat)
    : (r: Option<nat>)
    requires ri < |setup.rooms| && setup.rooms[ri] in st.roomBusy && day in st.roomBusy[setup.rooms[ri]]
    ensures r.Some? ==> start <= r.value && Fits(setup, st, day, length, classe, prof, ri, r.value)
    ensures r.Some? ==> forall s :: start <= s < r.value ==> !Fits(setup, st, day, length, classe, prof, ri, s)
    ensures r.None? ==> forall s :: start <= s ==> !Fits(setup, st, day, length, classe, prof, ri, s)
    decreases |st.roomBusy[setup.rooms[ri]][day]| - start
  {
    if start + length > |st.roomBusy[setup.rooms[ri]][day]| then None
    else if Fits(setup, st, day, length, classe, prof, ri, start) then Some(start)
    else ScanStarts(setup, st, day, length, classe, prof, ri, start + 1)
  }

  /** The outer loop of `find_window`: the first room from position `ri`
      on, with its first fitting start. */
  function ScanRooms(setup: Setup, st: State, day: Weekday, length: nat, classe: string, prof: string, ri: nat)
    : (r: Option<Window>)
    requires forall rm :: rm in setup.rooms ==> rm in st.roomBusy && day in st.roomBusy[rm]
    ensures r.Some? ==>
      ri <= r.value.roomIndex && Fits(setup, st, day, length, classe, prof, r.value.roomIndex, r.value.start)
    ensures r.Some? ==> forall i, s :: ri <= i && SearchedBefore(i, s, r.value) ==>
      !Fits(setup, st, day, length, classe, prof, i, s)
    ensures r.None? ==> forall i, s :: ri <= i ==> !Fits(setup, st, day, length, classe, prof, i, s)
    decreases |setup.rooms| - ri
  {
    if ri >= |setup.rooms| then None
    else
      match ScanStarts(setup, st, day, length, classe, prof, ri, 0)
      case Some(s) => Some(Window(ri, s))
      case None => ScanRooms(setup, st, day, length, classe, prof, ri + 1)
  }

  /** `find_window`: the first (room, start) pair, rooms in list order and
      starts from 0, whose window is free in the room, the class and the
      teacher; `None` exactly when there is no such pair. */
  function FindWindow(setup: Setup, st: State, day: Weekday, length: nat, classe: string, prof: string)
    : (r: Option<Window>)
    requires WellFormed(setup, st) && day in ActiveDays(setup.config)
    ensures r.Some? ==>
      && r.value.roomIndex < |setup.rooms|
      && r.value.start + length <= SlotCount(setup.config, day)
      && WindowFree(st.roomBusy[setup.rooms[r.value.roomIndex]][day], r.value.start, length)
      && WindowFree(ClassGrid(setup, st, classe, day), r.value.start, length)
      && WindowFree(ProfGrid(setup, st, prof, day), r.value.start, length)
    ensures r.Some? ==> forall i, s :: SearchedBefore(i, s, r.value) ==>
      !Fits(setup, st, day, length, classe, prof, i, s)
    ensures r.None? <==> forall i, s :: !Fits(setup, st, day, length, classe, prof, i, s)
  {
    ScanRooms(setup, st, day, length, classe, prof, 0)
  }

  // ---------------------------------------------------------------------
  // Placement (`assign_block`)

  /** Everything `assign_block` needs to index its grids and slot list. */
  ghost predicate CanAssign(setup: Setup, st: State, classe: string, prof: string, day: Weekday, room: Room, start: nat, length: nat) {
    && WellFormed(setup, st)
    && day in ActiveDays(setup.config)
    && room in st.roomBusy && classe in st.classBusy && classe in st.classHours && prof in st.profBusy
    && start < SlotCount(setup.config, day) && start + length <= SlotCount(setup.config, day)
  }

  /** The record `assign_block` appends. */
  function MakeAssignment(setup: Setup, classe: string, matiere: string, prof: string, day: Weekday, room: Room, start: nat, length: nat)
    : (a: Assignment)
    requires start < SlotCount(setup.config, day)
    ensures a.start == DayBase(day) + SlotStart(start, setup.config.slotMinutes)
    ensures a.end - a.start == a.minutes == length * setup.config.slotMinutes
    ensures a.day == day && a.room == room && a.classe == classe && a.matiere == matiere && a.prof == prof
  {
    var slots := DaySlots(Name(day), setup.config.includeSunday, setup.config.slotMinutes);
    SlotCountAgrees(setup.config, day);
    DaySlotMinute(Name(day), setup.config.includeSunday, setup.config.slotMinutes, start);
    var begin := DayBase(day) + MinuteOfDay(slots[start]);
    var minutes := length * setup.config.slotMinutes;
    Assignment(day, begin, begin + minutes, classe, matiere, prof, room, minutes)
  }

  /** Books slots `start .. start+length-1` of `key`'s grid for `day`:
      that one grid changes, as `MarkWindow` says, and nothing else. */
  function Book<K>(m: map<K, Grids>, key: K, day: Weekday, start: nat, length: nat): (r: map<K, Grids>)
    requires key in m && day in m[key] && start + length <= |m[key][day]|
    ensures r.Keys == m.Keys
    ensures forall x, d :: x in m && d in m[x] ==>
      d in r[x] &&
      r[x][d] == if x == key && d == day then MarkWindow(m[x][d], start, length) else m[x][d]
  {
    m[key := m[key][day := MarkWindow(m[key][day], start, length)]]
  }

  /** Booking keeps every grid at its size. */
  lemma BookKeepsShape<K>(cfg: Config, m: map<K, Grids>, key: K, day: Weekday, start: nat, length: nat)
    requires key in m && day in m[key] && start + length <= |m[key][day]|
    requires forall x :: x in m ==> GridsOk(cfg, m[x])
    ensures var r := Book(m, key, day, start, length);
      forall x :: x in r ==> GridsOk(cfg, r[x])
  {
    var r := Book(m, key, day, start, length);
    forall x | x in r ensures GridsOk(cfg, r[x]) {
      assert GridsOk(cfg, m[x]);
    }
  }

  /** Adds `minutes` to `classe`'s counter for `day`, leaving every other
      counter unchanged. */
  function AddMinutes(hours: map<string, map<Weekday, int>>, classe: string, day: Weekday, minutes: int)
    : (r: map<string, map<Weekday, int>>)
    requires classe in hours && day in hours[classe]
    ensures r.Keys == hours.Keys
    ensures forall c, d :: c in hours && d in hours[c] ==>
      d in r[c] && r[c][d] == hours[c][d] + if c == classe && d == day then minutes else 0
    ensures forall c :: c in hours ==> r[c].Keys == hours[c].Keys
  {
    hours[classe := hours[classe][day := hours[classe][day] + minutes]]
  }

  /** `assign_block`: books slots `start .. start+length-1` of `day` in the
      room's, the class's and the teacher's grid, appends the assignment
      and adds its length to the class's minutes on that day. */
  function AssignBlock(setup: Setup, st: State, classe: string, matiere: string, prof: string, day: Weekday, room: Room, start: nat, length: nat)
    : (r: State)
    requires CanAssign(setup, st, classe, prof, day, room, start, length)
    ensures WellFormed(setup, r)
    ensures r.roomBusy.Keys == st.roomBusy.Keys && r.profBusy.Keys == st.profBusy.Keys
    ensures r.classBusy.Keys == st.classBusy.Keys && r.classHours.Keys == st.classHours.Keys
    ensures r.assignments == st.assignments + [MakeAssignment(setup, classe, matiere, prof, day, room, start, length)]
  {
    BookKeepsShape(setup.config, st.roomBusy, room, day, start, length);
    BookKeepsShape(setup.config, st.profBusy, prof, day, start, length);
    BookKeepsShape(setup.config, st.classBusy, classe, day, start, length);
    State(
      Book(st.roomBusy, room, day, start, length),
      Book(st.profBusy, prof, day, start, length),
      Book(st.classBusy, classe, day, start, length),
      AddMinutes(st.classHours, classe, day, length * setup.config.slotMinutes),
      st.assignments + [MakeAssignment(setup, classe, matiere, prof, day, room, start, length)])
  }

  /** Cell by cell, `r` is `m` with slots `start .. start+length-1` of
      `key`'s grid for `day` set busy: those become busy, every other cell
      keeps its value, and every grid keeps its size. */
  ghost predicate BookedOnly<K>(m: map<K, Grids>, r: map<K, Grids>, key: K, day: Weekday, start: nat, length: nat) {
    forall x, d, i :: x in m && d in m[x] && 0 <= i < |m[x][d]| ==>
      && x in r && d in r[x] && |r[x][d]| == |m[x][d]|
      && r[x][d][i] == (m[x][d][i] || (x == key && d == day && start <= i < start + length))
  }

  lemma BookChangesWindow<K>(m: map<K, Grids>, key: K, day: Weekday, start: nat, length: nat)
    requires key in m && day in m[key] && start + length <= |m[key][day]|
    ensures BookedOnly(m, Book(m, key, day, start, length), key, day, start, length)
  {
    var r := Book(m, key, day, start, length);
    forall x, d, i | x in m && d in m[x] && 0 <= i < |m[x][d]|
      ensures x in r && d in r[x] && |r[x][d]| == |m[x][d]|
      ensures r[x][d][i] == (m[x][d][i] || (x == key && d == day && start <= i < start + length))
    {
      if x == key && d == day {
        assert r[x][d] == MarkWindow(m[x][d], start, length);
      } else {
        assert r[x][d] == m[x][d];
      }
    }
  }

  /** The frame of `assign_block`: in the room's, the class's and the
      teacher's grid exactly the window's cells on `day` become busy and
      no other cell changes; only the class's counter for `day` moves, by
      the block's length in minutes. */
  lemma AssignBlockFrame(setup: Setup, st: State, classe: string, matiere: string, prof: string, day: Weekday, room: Room, start: nat, length: nat)
    requires CanAssign(setup, st, classe, prof, day, room, start, length)
    ensures var r := AssignBlock(setup, st, classe, matiere, prof, day, room, start, length);
      && BookedOnly(st.roomBusy, r.roomBusy, room, day, start, length)
      && BookedOnly(st.classBusy, r.classBusy, classe, day, start, length)
      && BookedOnly(st.profBusy, r.profBusy, prof, day, start, length)
      && forall c, d :: c in st.classHours && d in st.classHours[c] ==>
           d in r.classHours[c] &&
           r.classHours[c][d] == st.classHours[c][d] + if c == classe && d == day then length * setup.config.slotMinutes else 0
  {
    BookChangesWindow(st.roomBusy, room, day, start, length);
    BookChangesWindow(st.classBusy, classe, day, start, length);
    BookChangesWindow(st.profBusy, prof, day, start, length);
  }

  // ---------------------------------------------------------------------
  // The run (`schedule`)

  /** Where a block goes: a day and a window on it. */
  datatype Placement = Placement(day: Weekday, window: Window)

  /** What a stretch of the run leaves: the state and the warnings issued. */
  datatype Run = Run(state: State, warnings: seq<Warning>)

  /** Every teacher and class of the curriculum has its grids and counters,
      as the first loop of `schedule` arranges. */
  ghost predicate Ready(setup: Setup, st: State) {
    && WellFormed(setup, st)
    && forall t :: t in setup.curriculum ==>
         t.classe in st.classBusy && t.classe in st.classHours && t.prof in st.profBusy
  }

  /** `p` is what the day loop finds at position `k` of `days`: the day
      there, with the window `find_window` gives on it, after every
      earlier day found none. */
  ghost predicate FirstAt(setup: Setup, st: State, days: seq<Weekday>, length: nat, classe: string, prof: string,
                          k: int, p: Placement)
    requires WellFormed(setup, st) && forall d :: d in days ==> d in ActiveDays(setup.config)
  {
    && 0 <= k < |days| && days[k] == p.day
    && FindWindow(setup, st, p.day, length, classe, prof) == Some(p.window)
    && forall j :: 0 <= j < k ==> FindWindow(setup, st, days[j], length, classe, prof).None?
  }

  /** No day of `days` has a window. */
  ghost predicate NoneFits(setup: Setup, st: State, days: seq<Weekday>, length: nat, classe: string, prof: string)
    requires WellFormed(setup, st) && forall d :: d in days ==> d in ActiveDays(setup.config)
  {
    forall k :: 0 <= k < |days| ==> FindWindow(setup, st, days[k], length, classe, prof).None?
  }

  lemma FirstAtShift(setup: Setup, st: State, days: seq<Weekday>, length: nat, classe: string, prof: string,
                     r: Option<Placement>)
    requires WellFormed(setup, st) && forall d :: d in days ==> d in ActiveDays(setup.config)
    requires days != [] && FindWindow(setup, st, days[0], length, classe, prof).None?
    requires r.Some? ==> exists k :: FirstAt(setup, st, days[1..], length, classe, prof, k, r.value)
    requires r.None? <==> NoneFits(setup, st, days[1..], length, classe, prof)
    ensures r.Some? ==> exists k :: FirstAt(setup, st, days, length, classe, prof, k, r.value)
    ensures r.None? <==> NoneFits(setup, st, days, length, classe, prof)
  {
    assert forall k :: 0 < k < |days| ==> days[k] == days[1..][k - 1];
    if r.Some? {
      var k :| FirstAt(setup, st, days[1..], length, classe, prof, k, r.value);
      assert FirstAt(setup, st, days, length, classe, prof, k + 1, r.value);
    }
  }

  /** The inner `for day in ...: ... break` loop: the first day of `days`
      on which `find_window` succeeds, with its window. */
  function FirstPlacement(setup: Setup, st: State, days: seq<Weekday>, length: nat, classe: string, prof: string)
    : (r: Option<Placement>)
    requires WellFormed(setup, st) && forall d :: d in days ==> d in ActiveDays(setup.config)
    ensures r.Some? ==> exists k :: FirstAt(setup, st, days, length, classe, prof, k, r.value)
    ensures r.None? <==> NoneFits(setup, st, days, length, classe, prof)
  {
    if days == [] then None
    else
      match FindWindow(setup, st, days[0], length, classe, prof)
      case Some(w) =>
        assert FirstAt(setup, st, days, length, classe, prof, 0, Placement(days[0], w));
        Some(Placement(days[0], w))
      case None =>
        var r := FirstPlacement(setup, st, days[1..], length, classe, prof);
        FirstAtShift(setup, st, days, length, classe, prof, r);
        r
  }

  /** One iteration of `for _ in range(n_blocks)`: a 2-hour block of
      `task` on the first preferred day that has a window, or a warning. */
  function PlaceBlock(setup: Setup, st: State, task: Requirement): (r: Run)
    requires Ready(setup, st) && task in setup.curriculum
    ensures Ready(setup, r.state)
    ensures forall x :: x in r.warnings ==> x == Warning(task.classe, task.matiere, task.prof)
    ensures |r.state.assignments| + |r.warnings| == |st.assignments| + 1
    ensures r.warnings == [] ==>
      && r.state.assignments[..|st.assignments|] == st.assignments
      && r.state.assignments[|st.assignments|].classe == task.classe
      && r.state.assignments[|st.assignments|].matiere == task.matiere
      && r.state.assignments[|st.assignments|].prof == task.prof
    ensures r.warnings != [] ==> r.state == st && r.warnings == [Warning(task.classe, task.matiere, task.prof)]
  {
    var length := Block2(setup.config.slotMinutes);
    var days := PickDays(setup, st, task.classe, task.prof);
    match FirstPlacement(setup, st, days, length, task.classe, task.prof)
    case None => Run(st, [Warning(task.classe, task.matiere, task.prof)])
    case Some(p) =>
      var room := setup.rooms[p.window.roomIndex];
      Run(AssignBlock(setup, st, task.classe, task.matiere, task.prof, p.day, room, p.window.start, length), [])
  }

  /** The day loop finds nothing iff no day on which the teacher is
      available has a fitting window in any room. */
  lemma NoPlacementAnywhere(setup: Setup, st: State, length: nat, classe: string, prof: string)
    requires WellFormed(setup, st) && HasHours(setup, st, classe)
    ensures FirstPlacement(setup, st, PickDays(setup, st, classe, prof), length, classe, prof).None? <==>
      forall d, i, s :: d in ActiveDays(setup.config) && Name(d) !in Indispo(setup, prof) ==>
        !Fits(setup, st, d, length, classe, prof, i, s)
  {
    var days := PickDays(setup, st, classe, prof);
    match FirstPlacement(setup, st, days, length, classe, prof)
    case None =>
      forall d, i, s | d in ActiveDays(setup.config) && Name(d) !in Indispo(setup, prof)
        ensures !Fits(setup, st, d, length, classe, prof, i, s)
      {
        assert d in days;
        var k :| 0 <= k < |days| && days[k] == d;
        assert FindWindow(setup, st, days[k], length, classe, prof).None?;
      }
    case Some(p) =>
      var k :| FirstAt(setup, st, days, length, classe, prof, k, p);
      assert p.day in days;
      assert Fits(setup, st, p.day, length, classe, prof, p.window.roomIndex, p.window.start);
  }

  /** An attempt warns iff no day on which the teacher is available has a
      fitting window in any room. */
  lemma PlaceBlockWarns(setup: Setup, st: State, task: Requirement)
    requires Ready(setup, st) && task in setup.curriculum
    ensures PlaceBlock(setup, st, task).warnings != [] <==>
      forall d, i, s :: d in ActiveDays(setup.config) && Name(d) !in Indispo(setup, task.prof) ==>
        !Fits(setup, st, d, Block2(setup.config.slotMinutes), task.classe, task.prof, i, s)
  {
    NoPlacementAnywhere(setup, st, Block2(setup.config.slotMinutes), task.classe, task.prof);
  }

  /** A successful attempt books exactly the window `find_window` returns on
      the first preferred day that has one. */
  lemma PlaceBlockBooks(setup: Setup, st: State, task: Requirement)
    requires Ready(setup, st) && task in setup.curriculum
    ensures var length := Block2(setup.config.slotMinutes);
      var found := FirstPlacement(setup, st, PickDays(setup, st, task.classe, task.prof), length, task.classe, task.prof);
      found.Some? ==>
        && found.value.window.roomIndex < |setup.rooms|
        && found.value.window.start < SlotCount(setup.config, found.value.day)
        && PlaceBlock(setup, st, task).state.assignments == st.assignments + [MakeAssignment(setup,
             task.classe, task.matiere, task.prof, found.value.day,
             setup.rooms[found.value.window.roomIndex], found.value.window.start, length)]
  {
  }

  /** The number of 2-hour blocks a curriculum row asks for
      (`int(Heures) // 2`). */
  function Blocks(t: Requirement): nat
    requires t.hours > 0
  {
    t.hours / 2
  }

  /** Total number of blocks asked for by `rows`, all with positive hours. */
  function TotalBlocks(rows: seq<Requirement>): nat
    requires forall k :: 0 <= k < |rows| ==> rows[k].hours > 0
  {
    if rows == [] then 0 else Blocks(rows[0]) + TotalBlocks(rows[1..])
  }

  /** The teachers named by `rows`. */
  function ProfsOf(rows: seq<Requirement>): set<string> {
    set t | t in rows :: t.prof
  }

  /** The classes named by `rows`. */
  function ClassesOf(rows: seq<Requirement>): set<string> {
    set t | t in rows :: t.classe
  }

  /** The names of a non-empty list of rows are those of its head and
      those of its tail. */
  lemma NamesSplit(rows: seq<Requirement>)
    requires rows != []
    ensures ProfsOf(rows) == {rows[0].prof} + ProfsOf(rows[1..])
    ensures ClassesOf(rows) == {rows[0].classe} + ClassesOf(rows[1..])
  {
    assert rows[0] in rows && forall t :: t in rows[1..] ==> t in rows;
    assert forall t :: t in rows ==> t == rows[0] || t in rows[1..];
  }

  /** Adding `x` and then `rest` to a key set adds `all = {x} + rest`. */
  lemma UnionStep(before: set<string>, mid: set<string>, after: set<string>, x: string, rest: set<string>, all: set<string>)
    requires mid == before + {x} && after == mid + rest && all == {x} + rest
    ensures after == before + all
  {
  }

  /** The first loop of `schedule`: `ensure_prof` then `ensure_class` for
      every row, in order. */
  function EnsureAll(setup: Setup, st: State, rows: seq<Requirement>): (r: State)
    requires WellFormed(setup, st)
    ensures WellFormed(setup, r)
    ensures r.roomBusy == st.roomBusy && r.assignments == st.assignments
    ensures forall t :: t in rows ==> t.classe in r.classBusy && t.classe in r.classHours && t.prof in r.profBusy
    ensures forall p :: p in st.profBusy ==> p in r.profBusy && r.profBusy[p] == st.profBusy[p]
    ensures forall c :: c in st.classBusy ==> c in r.classBusy && r.classBusy[c] == st.classBusy[c]
    ensures forall c :: c in st.classHours ==> c in r.classHours && r.classHours[c] == st.classHours[c]
    ensures ZeroHours(setup.config, st.classHours) ==> ZeroHours(setup.config, r.classHours)
    ensures r.profBusy.Keys == st.profBusy.Keys + ProfsOf(rows)
    ensures r.classBusy.Keys == st.classBusy.Keys + ClassesOf(rows)
    ensures r.classHours.Keys == st.classHours.Keys + ClassesOf(rows)
    decreases |rows|
  {
    if rows == [] then st
    else
      var next := EnsureClass(setup, EnsureProf(setup, st, rows[0].prof), rows[0].classe);
      assert forall t :: t in rows ==> t == rows[0] || t in rows[1..];
      var r := EnsureAll(setup, next, rows[1..]);
      NamesSplit(rows);
      UnionStep(st.profBusy.Keys, next.profBusy.Keys, r.profBusy.Keys, rows[0].prof, ProfsOf(rows[1..]), ProfsOf(rows));
      UnionStep(st.classBusy.Keys, next.classBusy.Keys, r.classBusy.Keys, rows[0].classe, ClassesOf(rows[1..]), ClassesOf(rows));
      UnionStep(st.classHours.Keys, next.classHours.Keys, r.classHours.Keys, rows[0].classe, ClassesOf(rows[1..]), ClassesOf(rows));
      r
  }

  /** The sort key `weight(row)`: more hours first, then teachers with
      more unavailable days. */
  function TaskKey(setup: Setup, t: Requirement): Key {
    Key(-t.hours, -|Indispo(setup, t.prof)|)
  }

  /** One row's weight is below another's iff it asks for more hours, or
      as many hours for a teacher with more unavailable days. */
  lemma TaskKeyOrder(setup: Setup, a: Requirement, b: Requirement)
    ensures KeyLess(TaskKey(setup, a), TaskKey(setup, b)) <==>
      a.hours > b.hours || (a.hours == b.hours && |Indispo(setup, a.prof)| > |Indispo(setup, b.prof)|)
  {
  }

  /** The positions of the curriculum rows in the order `sorted(...,
      key=weight)` visits them. */
  function TaskOrder(setup: Setup): (order: seq<nat>)
    ensures IsPermutation(order, |setup.curriculum|)
    ensures StablyOrdered(seq(|setup.curriculum|, i requires 0 <= i < |setup.curriculum| => TaskKey(setup, setup.curriculum[i])), order)
  {
    SortIndices(seq(|setup.curriculum|, i requires 0 <= i < |setup.curriculum| => TaskKey(setup, setup.curriculum[i])))
  }

  /** `tasks`: the curriculum rows in weight order. */
  function Tasks(setup: Setup): (tasks: seq<Requirement>)
    ensures |tasks| == |setup.curriculum|
    ensures forall t :: t in tasks <==> t in setup.curriculum
    ensures forall p, q :: 0 <= p < q < |tasks| ==> !KeyLess(TaskKey(setup, tasks[q]), TaskKey(setup, tasks[p]))
    ensures forall p :: 0 <= p < |tasks| ==> tasks[p] == setup.curriculum[TaskOrder(setup)[p]]
  {
    var order := TaskOrder(setup);
    var tasks := seq(|order|, p requires 0 <= p < |order| => setup.curriculum[order[p]]);
    assert forall t :: t in setup.curriculum ==> t in tasks by {
      forall t | t in setup.curriculum ensures t in tasks {
        var i :| 0 <= i < |setup.curriculum| && setup.curriculum[i] == t;
        assert i in order;
        var p :| 0 <= p < |order| && order[p] == i;
        assert tasks[p] == t;
      }
    }
    tasks
  }
}

=== FILE: slots.dfy ===
/** The daily slot grid (`START_HOUR`, `END_HOUR`, `build_day_slots`,
    `slots_needed` in app.py). */
module Slots {
  import opened Days

  const START_HOUR: int := 9
  const END_HOUR: int := 18

  /** Slot width in minutes; the settings offer only 60 and 30. */
  type Granularity = m: int | m == 60 || m == 30 witness 60

  /** The run-wide settings the source reads from the sidebar. */
  datatype Config = Config(includeSunday: bool, slotMinutes: Granularity)

  /** A wall-clock time of day, as Python's `time(hour=h, minute=m)`. */
  datatype Clock = Clock(hour: int, minute: int)

  function MinuteOfDay(c: Clock): int {
    c.hour * 60 + c.minute
  }

  /** The clock showing `t` minutes after midnight. */
  function ClockAt(t: nat): (c: Clock)
    ensures MinuteOfDay(c) == t && 0 <= c.minute < 60
  {
    Clock(t / 60, t % 60)
  }

  /** Whether a day gets no slots at all: Saturday always, Sunday unless
      it is enabled. */
  predicate DayOff(day: DayName, includeSunday: bool) {
    day == "Samedi" || (day == "Dimanche" && !includeSunday)
  }

  /** Number of slots on a working day: the nine hours from 09:00 to 18:00
      cut into `slotMinutes` pieces. */
  function SlotsPerDay(slotMinutes: Granularity): (n: nat)
    ensures slotMinutes == 60 ==> n == 9
    ensures slotMinutes == 30 ==> n == 18
  {
    (END_HOUR - START_HOUR) * 60 / slotMinutes
  }

  /** Start minute (after midnight) of slot `k`. */
  function SlotStart(k: nat, slotMinutes: Granularity): nat {
    START_HOUR * 60 + k * slotMinutes
  }

  /** The slots of a day, in closed form. */
  function DaySlots(day: DayName, includeSunday: bool, slotMinutes: Granularity): (slots: seq<Clock>)
    ensures DayOff(day, includeSunday) ==> slots == []
    ensures !DayOff(day, includeSunday) ==> |slots| == SlotsPerDay(slotMinutes) && slots[0] == Clock(START_HOUR, 0)
    ensures forall k :: 0 <= k < |slots| ==>
      START_HOUR <= slots[k].hour < END_HOUR && 0 <= slots[k].minute < 60
    ensures forall k :: 0 < k < |slots| ==>
      MinuteOfDay(slots[k]) == MinuteOfDay(slots[k - 1]) + slotMinutes
  {
    if DayOff(day, includeSunday) then []
    else
      var n := SlotsPerDay(slotMinutes);
      var slots := seq(n, k requires 0 <= k < n => ClockAt(SlotStart(k, slotMinutes)));
      assert forall k :: 0 <= k < n ==> SlotStart(k, slotMinutes) < END_HOUR * 60 by {
        if slotMinutes == 60 {
          assert forall k :: 0 <= k < n ==> SlotStart(k, slotMinutes) == 540 + k * 60;
        } else {
          assert forall k :: 0 <= k < n ==> SlotStart(k, slotMinutes) == 540 + k * 30;
        }
      }
      slots
  }

  /** Slot `k` of a working day starts `k` widths after 09:00. */
  lemma DaySlotMinute(day: DayName, includeSunday: bool, slotMinutes: Granularity, k: nat)
    requires k < |DaySlots(day, includeSunday, slotMinutes)|
    ensures MinuteOfDay(DaySlots(day, includeSunday, slotMinutes)[k]) == SlotStart(k, slotMinutes)
  {
  }

  /** `build_day_slots`: the source's loop, stepping an (hour, minute) pair
      by `slotMinutes` from 09:00 and carrying minutes into hours, until the
      hour reaches 18. It yields exactly the closed-form grid. */
  method BuildDaySlots(day: DayName, includeSunday: bool, slotMinutes: Granularity)
    returns (slots: seq<Clock>)
    ensures slots == DaySlots(day, includeSunday, slotMinutes)
  {
    if day == "Samedi" {
      return [];
    }
    if day == "Dimanche" && !includeSunday {
      return [];
    }
    slots := [];
    var h := START_HOUR;
    var m := 0;
    while true
      invariant 0 <= m < 60
      invariant h * 60 + m == SlotStart(|slots|, slotMinutes)
      invariant |slots| <= SlotsPerDay(slotMinutes)
      invariant forall k :: 0 <= k < |slots| ==> slots[k] == ClockAt(SlotStart(k, slotMinutes))
      decreases END_HOUR * 60 - (h * 60 + m)
    {
      if h >= END_HOUR {
        break;
      }
      SlotBelowEnd(|slots|, slotMinutes);
      slots := slots + [Clock(h, m)];
      m := m + slotMinutes;
      while m >= 60
        invariant 0 <= m
        invariant h * 60 + m == SlotStart(|slots|, slotMinutes)
        decreases m
      {
        h := h + 1;
        m := m - 60;
      }
    }
    SlotReachesEnd(|slots|, slotMinutes);
  }

  /** While a slot still starts before 18:00 there is room for it. */
  lemma SlotBelowEnd(k: nat, slotMinutes: Granularity)
    requires SlotStart(k, slotMinutes) < END_HOUR * 60
    ensures k < SlotsPerDay(slotMinutes)
  {
  }

  /** Once the next start reaches 18:00 the grid is complete. */
  lemma SlotReachesEnd(k: nat, slotMinutes: Granularity)
    requires k <= SlotsPerDay(slotMinutes)
    requires SlotStart(k, slotMinutes) >= END_HOUR * 60
    ensures k == SlotsPerDay(slotMinutes)
  {
  }

  /** `slots_needed`: Python's `int(round(minutes / slotMinutes))`, where
      `minutes` is the duration in minutes; `round` sends halves to the
      even neighbour. */
  function SlotsNeeded(minutes: nat, slotMinutes: Granularity): (n: nat)
    ensures -(slotMinutes as int) <= 2 * (n * slotMinutes - minutes) <= slotMinutes
    ensures 2 * (n * slotMinutes - minutes) == slotMinutes ==> n % 2 == 0
    ensures 2 * (n * slotMinutes - minutes) == -(slotMinutes as int) ==> n % 2 == 0
    ensures minutes % slotMinutes == 0 ==> n * slotMinutes == minutes
  {
    var q := minutes / slotMinutes;
    var r := minutes % slotMinutes;
    if 2 * r < slotMinutes then q
    else if 2 * r > slotMinutes then q + 1
    else if q % 2 == 0 then q
    else q + 1
  }

  /** The width of a two-hour block in slots (`block2`): it covers exactly
      120 minutes at either granularity. */
  function Block2(slotMinutes: Granularity): (n: nat)
    ensures n * slotMinutes == 120
    ensures n > 0
  {
    SlotsNeeded(120, slotMinutes)
  }
}

=== FILE: stable_sort.dfy ===
/** Python's `sorted(xs, key=...)` for keys that are pairs of integers:
    a stable sort, modelled as the insertion sort of the positions of `xs`.
    Stability is stated as a strict order on positions: a smaller key goes
    first, and equal keys keep their original order. */
module StableSort {

  /** A sort key: a pair of integers compared lexicographically, as Python
      compares 2-tuples. */
  datatype Key = Key(major: int, minor: int)

  predicate KeyLess(a: Key, b: Key) {
    a.major < b.major || (a.major == b.major && a.minor < b.minor)
  }

  /** Position `i` is placed before position `j`. */
  predicate Before(keys: seq<Key>, i: nat, j: nat)
    requires i < |keys| && j < |keys|
  {
    KeyLess(keys[i], keys[j]) || (keys[i] == keys[j] && i < j)
  }

  /** Every entry is a position of `keys`, and entries appear in the
      stable order (which also makes them distinct). */
  ghost predicate StablyOrdered(keys: seq<Key>, order: seq<nat>) {
    && (forall p :: 0 <= p < |order| ==> order[p] < |keys|)
    && (forall p, q :: 0 <= p < q < |order| ==> Before(keys, order[p], order[q]))
  }

  /** `order` lists each position below `n` exactly once. */
  ghost predicate IsPermutation(order: seq<nat>, n: nat) {
    |order| == n && forall i :: 0 <= i < n <==> i in order
  }

  /** Inserts position `i` in front of the first entry it goes before. */
  function Insert(keys: seq<Key>, sorted: seq<nat>, i: nat): (r: seq<nat>)
    requires i < |keys|
    requires forall p :: 0 <= p < |sorted| ==> sorted[p] < |keys|
    ensures |r| == |sorted| + 1
    ensures forall x :: x in r <==> x == i || x in sorted
    ensures StablyOrdered(keys, sorted) && i !in sorted ==> StablyOrdered(keys, r)
  {
    if sorted == [] then [i]
    else if Before(keys, i, sorted[0]) then
      var r := [i] + sorted;
      assert StablyOrdered(keys, sorted) && i !in sorted ==> StablyOrdered(keys, r) by {
        if StablyOrdered(keys, sorted) && i !in sorted {
          forall q | 1 < q < |r| ensures Before(keys, i, r[q]) {
            assert r[q] == sorted[q - 1];
            BeforeTransitive(keys, i, sorted[0], r[q]);
          }
        }
      }
      r
    else
      var tail := Insert(keys, sorted[1..], i);
      var r := [sorted[0]] + tail;
      assert forall x :: x in sorted[1..] ==> x in sorted;
      assert forall x :: x in sorted ==> x == sorted[0] || x in sorted[1..];
      assert StablyOrdered(keys, sorted) && i !in sorted ==> StablyOrdered(keys, r) by {
        if StablyOrdered(keys, sorted) && i !in sorted {
          assert StablyOrdered(keys, sorted[1..]);
          forall q | 0 < q < |r| ensures Before(keys, sorted[0], r[q]) {
            assert r[q] in tail;
          }
        }
      }
      r
  }

  lemma BeforeTransitive(keys: seq<Key>, i: nat, j: nat, k: nat)
    requires i < |keys| && j < |keys| && k < |keys|
    requires Before(keys, i, j) && Before(keys, j, k)
    ensures Before(keys, i, k)
  {
  }

  /** The stable order of the first `n` positions. */
  function SortPrefix(keys: seq<Key>, n: nat): (order: seq<nat>)
    requires n <= |keys|
    ensures IsPermutation(order, n)
    ensures StablyOrdered(keys, order)
  {
    if n == 0 then []
    else
      var prev := SortPrefix(keys, n - 1);
      Insert(keys, prev, n - 1)
  }

  /** The positions of `keys` in stable sorted order: a permutation of
      `0 .. |keys|-1` in which smaller keys come first and equal keys keep
      their original relative order. */
  function SortIndices(keys: seq<Key>): (order: seq<nat>)
    ensures IsPermutation(order, |keys|)
    ensures StablyOrdered(keys, order)
  {
    SortPrefix(keys, |keys|)
  }

  /** The stable order is unique: any permutation of the positions that
      respects it equals the one the sort computes. */
  lemma {:induction false} StableOrderUnique(keys: seq<Key>, a: seq<nat>, b: seq<nat>)
    requires IsPermutation(a, |keys|) && StablyOrdered(keys, a)
    requires IsPermutation(b, |keys|) && StablyOrdered(keys, b)
    ensures a == b
  {
    forall p | 0 <= p < |a| ensures a[p] == b[p] {
      OrderedRank(keys, a, p);
      OrderedRank(keys, b, p);
      var sa := set x | 0 <= x < |keys| && Before(keys, x, a[p]);
      var sb := set x | 0 <= x < |keys| && Before(keys, x, b[p]);
      if a[p] != b[p] {
        assert a[p] < |keys| && b[p] < |keys|;
        if Before(keys, a[p], b[p]) {
          assert a[p] in sb && a[p] !in sa;
          forall x | x in sa ensures x in sb { BeforeTransitive(keys, x, a[p], b[p]); }
          ProperSubsetSmaller(sa, sb);
        } else {
          assert Before(keys, b[p], a[p]);
          assert b[p] in sa && b[p] !in sb;
          forall x | x in sb ensures x in sa { BeforeTransitive(keys, x, b[p], a[p]); }
          ProperSubsetSmaller(sb, sa);
        }
        assert false;
      }
    }
  }

  /** In a stable permutation, the entry at `p` has exactly `p` positions
      before it. */
  lemma OrderedRank(keys: seq<Key>, a: seq<nat>, p: nat)
    requires IsPermutation(a, |keys|) && StablyOrdered(keys, a)
    requires p < |a|
    ensures |set x | 0 <= x < |keys| && Before(keys, x, a[p])| == p
  {
    var s := set x | 0 <= x < |keys| && Before(keys, x, a[p]);
    var t := set q | 0 <= q < p :: a[q];
    forall x | x in s ensures x in t {
      assert x in a;
      var q :| 0 <= q < |a| && a[q] == x;
      if q >= p {
        assert false;
      }
    }
    forall x | x in t ensures x in s {
      var q :| 0 <= q < p && a[q] == x;
    }
    assert s == t;
    InjectiveImage(a, p);
  }

  /** The first `p` entries of a sequence without repeats form a set of
      size `p`. */
  lemma {:induction false} InjectiveImage(a: seq<nat>, p: nat)
    requires p <= |a|
    requires forall i, j :: 0 <= i < j < |a| ==> a[i] != a[j]
    ensures |set q | 0 <= q < p :: a[q]| == p
  {
    if p > 0 {
      InjectiveImage(a, p - 1);
      var s := set q | 0 <= q < p - 1 :: a[q];
      assert (set q | 0 <= q < p :: a[q]) == s + {a[p - 1]};
      assert a[p - 1] !in s;
    }
  }

  lemma ProperSubsetSmaller(a: set<nat>, b: set<nat>)
    requires a < b
    ensures |a| < |b|
  {
    var x :| x in b && x !in a;
    SubsetNoLarger(a, b - {x});
  }

  lemma {:induction false} SubsetNoLarger(a: set<nat>, b: set<nat>)
    requires a <= b
    ensures |a| <= |b|
    decreases |a|
  {
    if a != {} {
      var y :| y in a;
      SubsetNoLarger(a - {y}, b - {y});
    }
  }

  /** A stably ordered list has no repeated position. */
  lemma StablyOrderedDistinct(keys: seq<Key>, order: seq<nat>)
    requires StablyOrdered(keys, order)
    ensures forall p, q :: 0 <= p < q < |order| ==> order[p] != order[q]
  {
  }
}

=== FILE: text.dfy ===
/** The few pieces of Python string handling the day-name parser relies on:
    `str.strip`, `str.capitalize`, `str.replace` of one character and
    `str.split` on one separator character (and its inverse, `join`). */
module Text {

  /** The characters Python's `str.isspace` accepts; `str.strip()` with no
      argument removes exactly these from both ends. */
  predicate IsSpace(c: char) {
    || ('\t' <= c <= '\r')
    || ('\U{1C}' <= c <= ' ')
    || c == '\U{85}' || c == '\U{A0}' || c == '\U{1680}'
    || ('\U{2000}' <= c <= '\U{200A}')
    || c == '\U{2028}' || c == '\U{2029}' || c == '\U{202F}' || c == '\U{205F}'
    || c == '\U{3000}'
  }

  /** Removes leading whitespace. */
  function StripLeading(s: string): (r: string)
    ensures |r| <= |s| && r == s[|s| - |r|..]
    ensures forall i :: 0 <= i < |s| - |r| ==> IsSpace(s[i])
    ensures r == [] || !IsSpace(r[0])
  {
    if s != [] && IsSpace(s[0]) then StripLeading(s[1..]) else s
  }

  /** Removes trailing whitespace. */
  function StripTrailing(s: string): (r: string)
    ensures |r| <= |s| && r == s[..|r|]
    ensures forall i :: |r| <= i < |s| ==> IsSpace(s[i])
    ensures r == [] || !IsSpace(r[|r| - 1])
  {
    if s != [] && IsSpace(s[|s| - 1]) then StripTrailing(s[..|s| - 1]) else s
  }

  /** Python's `s.strip()`: the longest infix of `s` that neither starts nor
      ends with whitespace, obtained by removing only whitespace. */
  function Strip(s: string): (r: string)
    ensures r == [] || (!IsSpace(r[0]) && !IsSpace(r[|r| - 1]))
    ensures |r| <= |s|
  {
    StripTrailing(StripLeading(s))
  }

  /** `strip` removes only whitespace, and only at the two ends: its result
      is the infix `s[i..j]` with nothing but whitespace before `i` and
      after `j`. With `Strip`'s own contract this fixes the result. */
  lemma StripInfix(s: string)
    ensures exists i, j ::
      && 0 <= i <= j <= |s| && Strip(s) == s[i..j]
      && (forall k :: 0 <= k < i ==> IsSpace(s[k]))
      && (forall k :: j <= k < |s| ==> IsSpace(s[k]))
  {
    var lead := StripLeading(s);
    var i := |s| - |lead|;
    var r := StripTrailing(lead);
    assert r == s[i..i + |r|];
    forall k | i + |r| <= k < |s| ensures IsSpace(s[k]) {
      assert s[k] == lead[k - i];
    }
  }

  /** A string that neither starts nor ends with whitespace is its own strip. */
  lemma StripTrimmed(s: string)
    requires s == [] || (!IsSpace(s[0]) && !IsSpace(s[|s| - 1]))
    ensures Strip(s) == s
  {
  }

  /** Leading whitespace in front of a string that does not start with
      whitespace is exactly what `StripLeading` removes. */
  lemma {:induction false} StripLeadingSpaces(pad: string, s: string)
    requires forall i :: 0 <= i < |pad| ==> IsSpace(pad[i])
    requires s != [] && !IsSpace(s[0])
    ensures StripLeading(pad + s) == s
  {
    if pad == [] {
      assert pad + s == s;
    } else {
      assert (pad + s)[0] == pad[0];
      assert (pad + s)[1..] == pad[1..] + s;
      StripLeadingSpaces(pad[1..], s);
    }
  }

  /** Whitespace in front of a trimmed string is all `strip` removes. */
  lemma StripAfterSpaces(pad: string, s: string)
    requires forall i :: 0 <= i < |pad| ==> IsSpace(pad[i])
    requires s != [] && !IsSpace(s[0]) && !IsSpace(s[|s| - 1])
    ensures Strip(pad + s) == s
  {
    StripLeadingSpaces(pad, s);
    assert StripTrailing(s) == s;
  }

  function Upper(c: char): char {
    if 'a' <= c <= 'z' then (c as int - 32) as char else c
  }

  function Lower(c: char): char {
    if 'A' <= c <= 'Z' then (c as int + 32) as char else c
  }

  function LowerAll(s: string): (r: string)
    ensures |r| == |s| && forall i :: 0 <= i < |s| ==> r[i] == Lower(s[i])
  {
    if s == [] then [] else [Lower(s[0])] + LowerAll(s[1..])
  }

  /** Python's `s.capitalize()` on ASCII letters: the first character
      upper-cased, every other character lower-cased. */
  function Capitalize(s: string): (r: string)
    ensures |r| == |s|
    ensures |s| > 0 ==> r[0] == Upper(s[0])
    ensures forall i :: 0 < i < |s| ==> r[i] == Lower(s[i])
  {
    if s == [] then [] else [Upper(s[0])] + LowerAll(s[1..])
  }

  /** Python's `s.replace(old, new)` for single characters. */
  function ReplaceChar(s: string, from: char, to: char): (r: string)
    ensures |r| == |s|
    ensures forall i :: 0 <= i < |s| ==> r[i] == (if s[i] == from then to else s[i])
  {
    if s == [] then [] else [if s[0] == from then to else s[0]] + ReplaceChar(s[1..], from, to)
  }

  /** Position of the first `c` in `s`, or `|s|` when there is none. */
  function IndexOf(s: string, c: char): (i: nat)
    ensures i <= |s|
    ensures i < |s| ==> s[i] == c
    ensures forall j :: 0 <= j < i ==> s[j] != c
  {
    if s == [] then 0 else if s[0] == c then 0 else 1 + IndexOf(s[1..], c)
  }

  /** Python's `s.split(sep)` with an explicit one-character separator:
      always at least one piece (`"".split(",") == [""]`), pieces may be
      empty, and no piece contains the separator. */
  function Split(s: string, sep: char): (parts: seq<string>)
    ensures |parts| >= 1
    ensures forall k :: 0 <= k < |parts| ==> sep !in parts[k]
    decreases |s|
  {
    var i := IndexOf(s, sep);
    if i == |s| then [s] else [s[..i]] + Split(s[i + 1..], sep)
  }

  /** Python's `sep.join(parts)` for a one-character separator. */
  function Join(parts: seq<string>, sep: char): string
  {
    if parts == [] then []
    else if |parts| == 1 then parts[0]
    else parts[0] + [sep] + Join(parts[1..], sep)
  }

  /** Splitting undoes joining, whenever no piece holds the separator. */
  lemma {:induction false} SplitJoin(parts: seq<string>, sep: char)
    requires |parts| >= 1
    requires forall k :: 0 <= k < |parts| ==> sep !in parts[k]
    ensures Split(Join(parts, sep), sep) == parts
  {
    var s := Join(parts, sep);
    if |parts| > 1 {
      var rest := Join(parts[1..], sep);
      assert s == parts[0] + [sep] + rest;
      var i := IndexOf(s, sep);
      assert s[|parts[0]|] == sep;
      assert i == |parts[0]|;
      assert s[..i] == parts[0];
      assert s[i + 1..] == rest;
      SplitJoin(parts[1..], sep);
    }
  }

  /** Joining undoes splitting. */
  lemma {:induction false} JoinSplit(s: string, sep: char)
    ensures Join(Split(s, sep), sep) == s
    decreases |s|
  {
    var i := IndexOf(s, sep);
    if i < |s| {
      var tail := Split(s[i + 1..], sep);
      JoinSplit(s[i + 1..], sep);
      assert Split(s, sep) == [s[..i]] + tail;
      assert ([s[..i]] + tail)[1..] == tail;
      assert s == s[..i] + [sep] + s[i + 1..];
    }
  }
}
